=== FILE: README.md ===
# DXDev scaffold core in Dafny

A model of the core of Zerkish/DXDev, a small Direct3D 11 application scaffold.
The library `DXLib` gives an application a Win32 window, a render system, a
high-resolution timer and a main loop with a frame-rate counter. It also has
two small math headers.

Every Win32, Direct3D and clock call is replaced by a value passed in as a
parameter: the clock reading, whether class registration succeeds, the
window handle `CreateWindowEx` returns, and what the device reports. Each
COM object becomes a held/not-held flag. `float`/`double` become `real`.
A source `assert` that the caller must satisfy becomes a `requires`.

Modules, one per source component:

- `Errors` — the flat error enum `dx::Error::E`.
- `ComRelease` — the `ReleaseCom` helper.
- `Timing` — `dx::Timer` as a record with pure transitions, plus traces of timer operations.
- `SimpleMath` — the inline helpers of `SimpleMath.h`: scalar functions, vectors, the identity matrix, rectangles.
- `DXMath` — the inline helpers of `DXMath.h`: range and tolerance checks, the `Radians` equality operators, degree/radian conversion.
- `Windows` — `dx::Window` bookkeeping:
  - the process-wide class-registered flag;
  - `Initialize`'s result;
  - the stored client size;
  - `WindowProc`'s message-to-hook dispatch;
  - the message pump;
  - the one-way close flag.
- `Rendering` — `dx::RenderSystem`'s error and cleanup protocol:
  - the device checks;
  - the swapchain, depth-buffer and viewport descriptors;
  - `FreeResources`;
  - the destructor guard.
- `FrameRate` — the rolling one-second frame counter of `DXApp::CalculateFPS`.
- `AppLoop` — `dx::DXApp`:
  - `Initialize`'s short-circuit;
  - `Quit`;
  - the `Run` loop, modelled by a method over a script of frames that records the hooks it calls as a trace of events.

Each frame of the script gives the clock reading, the pending messages, and whether `OnUpdate` or `OnRender` call `Quit`. A `Handlers` value says which window hooks (`OnClose`, the focus hooks, the size hooks) call `Quit`, and whether WM_ACTIVATE is dispatched as written or corrected. The demo `Application`'s `OnClose` calls `Quit`. The flag accessors `IsRunning`/`IsPaused`/`IsHighPrecision`, `GetWidth`/`GetHeight` and `IsCloseRequested` return the record fields unchanged.

## Model

| member | source | states |
|---|---|---|
| Errors.Code | DXLib/include/Err.h:6-29 | Every value lies between 0 and 7, and it is 0 exactly for OK |
| Errors.FromCode | DXLib/include/Err.h:6-29 | Every value 0 to 7 names the error that has that value |
| Errors.CodeRoundTrip | DXLib/include/Err.h:6-29 | Taking an error's value and naming it again gives back the same error |
| Errors.CodeInjective | DXLib/include/Err.h:6-29 | No two errors share a value |
| ComRelease.ReleaseCom | DXLib/src/Util.h:5-8 | The pointer is null afterwards; `Release` is called exactly when the pointer was non-null |
| ComRelease.ReleaseComIdempotent | DXLib/src/Util.h:6-7 | A second `ReleaseCom` on the same pointer calls no `Release` and leaves it null |
| Timing.NewTimer | DXLib/src/Timer.cpp:7-16 | A new timer is not running, not paused and not high-precision; delta, frequency and all tick fields are 0 |
| Timing.SecondsPerTick | DXLib/src/Timer.cpp:20-37 | The tick length is positive and is the reciprocal of the counter frequency, or 1/1000 s with the millisecond clock |
| Timing.Start | DXLib/src/Timer.cpp:18-42 | Start, last and this tick all equal the sampled reading; delta and total are 0; the timer runs and the total telescopes; the paused flag is kept; the high-precision flag is raised with a counter and otherwise kept |
| Timing.Stop | DXLib/src/Timer.cpp:44-46 | Only the running flag changes: delta and total are kept, and a telescoping total still telescopes |
| Timing.Pause | DXLib/src/Timer.cpp:48-51 | Needs a running, unpaused timer; only the paused flag changes |
| Timing.ResumeAsWritten | DXLib/src/Timer.cpp:53-55 | Needs a running, paused timer and changes nothing, so the timer stays paused |
| Timing.Resume | DXLib/src/Timer.cpp:53-55 | Corrected `Resume`: clears the paused flag and resumes from `now` with delta and total kept. It also moves the start tick, which the source never reads, forward by the paused interval, so a telescoping timer still telescopes |
| Timing.Tick | DXLib/src/Timer.cpp:57-76 | Needs a running timer. A paused timer is unchanged. Otherwise last := this, this := reading, delta = (reading − old this)·frequency, and total grows by delta. The start tick, frequency and flags are never touched |
| Timing.TickTelescopes | DXLib/src/Timer.cpp:63-75 | After any tick, total = (this − start)·frequency still holds |
| Timing.UnitsAgree | DXLib/include/Timer.h:32-41 | The millisecond, minute and hour getters agree with the second getters: ms/1000 = s, min·60 = s, h·3600 = s, h·60 = min |
| Timing.PauseIsPermanentAsWritten | DXLib/src/Timer.cpp:48-61 | After Pause and the as-written Resume, a tick at any later reading changes nothing. After Pause, any allowed sequence of Start/Stop/Resume/Tick as written leaves the timer paused, with the total frozen at its paused value, or at 0 once restarted |
| Timing.PausedStaysPaused | DXLib/src/Timer.cpp:18-76 | As written, a paused timer stays paused through any allowed later operations. Delta and total stay at their paused values without a restart and at 0 after one. Without a restart nothing but the running flag changes |
| Timing.ResumeThenTick | DXLib/src/Timer.cpp:53-75 | After Pause and the corrected Resume at `now`, the next tick advances by exactly `later − now` and total still telescopes |
| Timing.ReplayTelescopes | DXLib/src/Timer.cpp:18-76 | From a telescoping timer, any allowed sequence of Start/Stop/Pause/Resume/Tick keeps total = (this − start)·frequency. This holds with the as-written `Resume` and with the corrected one |
| Timing.ReplayTotalNeverDecreases | DXLib/src/Timer.cpp:57-76 | With no restart, a non-negative frequency and readings that never go back, total and the latest reading never decrease. This holds with the as-written `Resume` and with the corrected one |
| SimpleMath.WrapAngle | DXLib/include/SimpleMath.h:13-20 | Result lies in [−2π, 2π]; inputs in range are returned unchanged, anything above becomes −2π, anything below becomes 2π |
| SimpleMath.WrapAngleIsNotModulo | DXLib/include/SimpleMath.h:13-20 | Just above 2π the result is not the input reduced by a whole turn |
| SimpleMath.LerpEnds | DXLib/include/SimpleMath.h:22-25 | Weight 0 gives x, weight 1 gives y, and any weight in [0,1] lands between the two ends |
| SimpleMath.Clamp | DXLib/include/SimpleMath.h:27-32 | Never above max. With min ≤ max the result is in [min, max], is x when x is in range, and is the nearer bound otherwise. Above max the result is max even when the bounds cross |
| SimpleMath.ClampIdempotent | DXLib/include/SimpleMath.h:27-32 | Clamping twice is clamping once |
| SimpleMath.DegreesRadiansRoundTrip | DXLib/include/SimpleMath.h:34-42 | Converting degrees to radians and back, or radians to degrees and back, returns the input |
| SimpleMath.DotCommutes | DXLib/include/SimpleMath.h:176-179 | The scalar product is symmetric for 4-vectors, and for the 2- and 3-vector versions at lines 60 and 114 |
| SimpleMath.CrossProperties | DXLib/include/SimpleMath.h:126-131 | The cross product is anti-commutative and orthogonal to both operands |
| SimpleMath.Cross4 | DXLib/include/SimpleMath.h:197-202 | The 4-vector cross product ignores w: it is the 3D cross product of the xyz parts, orthogonal to the first operand's xyz |
| SimpleMath.Identity | DXLib/include/SimpleMath.h:237-243 | The default matrix is 4×4 with 1 on the diagonal and 0 elsewhere |
| SimpleMath.FromCorners | DXLib/include/SimpleMath.h:314-315 | The corner constructor puts the origin at min and the far corner at max: x + w = max.x, y + h = max.y |
| SimpleMath.IntersectsSymmetric | DXLib/include/SimpleMath.h:318-324 | Intersection does not depend on argument order |
| SimpleMath.IntersectsIffSharedPoint | DXLib/include/SimpleMath.h:318-324 | For rectangles of non-negative size, `Intersects` holds exactly when the closed regions share a point |
| SimpleMath.TouchingEdgesIntersect | DXLib/include/SimpleMath.h:318-324 | Two rectangles that only share an edge intersect |
| DXMath.InRangeIsStrictDistance | DXLib/include/DXMath.h:22-26 | In range exactly when the distance is below delta; both bounds are excluded; never in range when delta ≤ 0 |
| DXMath.InRangeTestCases | DXLibTests/MathTest.cpp:37-38 | 1 + ε is outside the ε-range of 1 and inside a range of ε + 0.0001 |
| DXMath.FloatEqualsProperties | DXLib/include/DXMath.h:28-31 | Tolerance equality is symmetric and reflexive, and is the ε-range test around either argument |
| DXMath.MixedEqualityAgrees | DXLib/include/DXMath.h:33-43 | `Radians == float` and `float == Radians` always agree; both are tolerance equality of the angle's value with the float |
| DXMath.ComparingTestCases | DXLibTests/MathTest.cpp:29-35 | Radians(π) equals π from both sides and differs from 1 |
| DXMath.ConversionRoundTrip | DXLib/include/DXMath.h:45-51 | The Degrees/Radians conversions are inverse to each other |
| DXMath.ConversionTestCases | DXLibTests/MathTest.cpp:17-25 | π radians is 180 degrees, 180 degrees is π radians, π/2 radians is 90 degrees |
| Windows.NewWindow | DXLib/src/Window.cpp:19-28 | The constructor stores size and title, no handle, and no close request |
| Windows.GetHandle | DXLib/src/Window.cpp:116-119 | Needs a created window and returns its non-null handle |
| Windows.RealWidth | DXLib/src/Window.cpp:72-76 | The outer width is at least the client width, and equal to it exactly when the border adds nothing |
| Windows.RealHeight | DXLib/src/Window.cpp:79-83 | The outer height is at least the client height, and equal to it exactly when the border adds nothing |
| Windows.RegisterDXClass | DXLib/src/Window.cpp:122-136 | Needs an unregistered class. OK and the flag raised exactly when registration succeeds; otherwise WINDOW_CLASS_REG_FAIL |
| Windows.InitWindow | DXLib/src/Window.cpp:155-177 | WINDOW_CREATE_FAIL exactly when the created handle is null, else OK. The handle is stored either way, and the request is the chrome-adjusted size |
| Windows.Initialize | DXLib/src/Window.cpp:38-49 | Needs a null handle. Registers only when unregistered. A registration failure is returned before creation is attempted. OK exactly when the class is available and a handle came back |
| Windows.RegistrationIsProcessWide | DXLib/src/Window.cpp:38-49 | Once one window registered the class, a second window skips registration and its result depends only on its own creation |
| Windows.SetSizeAsWritten | DXLib/src/Window.cpp:86-92 | As written: the stored size becomes the requested size plus the border, and that same size goes to SetWindowPos |
| Windows.SetSizeAsWrittenMisreports | DXLib/src/Window.cpp:86-92 | With any border, `GetWidth` after the as-written `SetSize(w, h)` is not `w` |
| Windows.SetSize | DXLib/src/Window.cpp:86-92 | Corrected: `GetWidth`/`GetHeight` report the requested client size and the outer window gets the chrome-adjusted size |
| Windows.SetSizeIdempotent | DXLib/src/Window.cpp:86-92 | Setting the same size twice equals setting it once |
| Windows.SizeHooks | DXLib/src/Window.cpp:190-196 | WM_SIZE fires at most one hook: maximise wins over minimise; with neither bit no hook fires |
| Windows.Dispatch | DXLib/src/Window.cpp:179-201 | WM_DESTROY calls OnClose, which sees the flag as it was, and then raises the flag. No other message touches the window. WM_ACTIVATE fires OnLostFocus when the low word of wParam is WA_INACTIVE and OnGainFocus otherwise (corrected). WM_SIZE fires the hooks `SizeHooks` gives. Any other message fires no hook. The hooks fired are the message's `MessageHooks`, whatever the window. The close hook fires exactly on WM_DESTROY, and every hook sees the flag as it was |
| Windows.DispatchAsWritten | DXLib/src/Window.cpp:186-188 | As written, the procedure differs from the corrected one only on WM_ACTIVATE. There it leaves the window unchanged and fires OnGainFocus exactly when wParam equals WA_INACTIVE, OnLostFocus otherwise |
| Windows.DispatchWith | DXLib/src/Window.cpp:179-201 | Either procedure, as written or corrected, raises the close flag exactly on WM_DESTROY, changes nothing else about the window, calls the close hook exactly on WM_DESTROY, and fires the message's `MessageHooks` for that choice |
| Windows.ActivateHooksSwapped | DXLib/src/Window.cpp:186-188 | WA_INACTIVE fires OnGainFocus as written but OnLostFocus once corrected. The two disagree exactly when wParam is WA_INACTIVE or its low word is not WA_INACTIVE. A minimised deactivation (wParam 0x10000) fires OnLostFocus in both |
| Windows.Fired | DXLib/src/Window.cpp:179-201 | The hooks a batch of messages fires, without reference to a window, include the close hook exactly when the batch holds WM_DESTROY, and there are at most as many as messages |
| Windows.Pump | DXLib/src/Window.cpp:104-110 | Drains a batch with the as-written or the corrected procedure. Afterwards the close flag is up exactly when it already was or the batch held WM_DESTROY. The close hook fired exactly when WM_DESTROY arrived. The hooks called are the batch's `Fired` hooks, in order. Nothing else about the window changes |
| Windows.PumpedDeactivation | DXLib/src/Window.cpp:186-188 | Pumping a plain deactivation calls OnGainFocus as written and OnLostFocus once corrected |
| Windows.CloseFlagIsSticky | DXLib/src/Window.cpp:182-185 | A raised close flag is never lowered |
| Rendering.NewRenderSystem | DXLib/src/RenderSystem.cpp:48-55 | Not initialised and no handle held |
| Rendering.ReleaseAll | DXLib/src/RenderSystem.cpp:119-125 | Releasing a list of handles nulls each named one and leaves the rest. It releases exactly the named handles that were held, in the list's order |
| Rendering.FreeResources | DXLib/src/RenderSystem.cpp:119-125 | Nothing is held afterwards. Exactly the held handles are released, each once, in the order depth-stencil view, swapchain, render-target view, device, context. The initialised flag is untouched |
| Rendering.FreeResourcesIdempotent | DXLib/src/RenderSystem.cpp:119-125 | Freeing a second time releases nothing and changes nothing |
| Rendering.CreateDeviceAndContext | DXLib/src/RenderSystem.cpp:127-163 | Needs no device yet. Any level but 11_0 gives RENDER_FEATURE_LEVEL_TOO_LOW. At 11_0, RENDER_FORMAT_NOT_SUPPORTED exactly when the buffer bit is clear. OK exactly when both checks pass, and then the MSAA level is positive. Device and context are held in every case |
| Rendering.SwapChainFor | DXLib/src/RenderSystem.cpp:165-180 | The default template of lines 14-36 with 4 samples at quality level − 1, the window's handle and its client size. Every other field is the template's: refresh 60/1, the RGBA8 format, unspecified scanline order and scaling, render-target usage, one buffer, windowed, discard swap effect, no flags |
| Rendering.DepthBufferFor | DXLib/src/RenderSystem.cpp:182-201 | The depth texture copies the swapchain's width, height and sampling, with one mip level, one slice and the D24S8 format bound as depth-stencil |
| Rendering.ViewportFor | DXLib/src/RenderSystem.cpp:96-104 | The viewport covers the window's client area at depth 0 to 1 |
| Rendering.Initialize | DXLib/src/RenderSystem.cpp:66-108 | The error is the device step's error, returned unchanged. On failure nothing is held, there is no setup, and the initialised flag is not raised. On success all five handles are held, the flag is up, nothing was released, and the setup uses the swapchain, depth and viewport descriptors above |
| Rendering.FailedInitializeReleasesDeviceAndContext | DXLib/src/RenderSystem.cpp:66-73 | A rejected device makes `Initialize` release exactly the device and the context, device first |
| Rendering.FreeingAllReleasesInOrder | DXLib/src/RenderSystem.cpp:119-125 | With all five handles held, `FreeResources` releases all five in its fixed order |
| Rendering.Destruct | DXLib/src/RenderSystem.cpp:57-64 | An uninitialised system is left alone. An initialised one has its context state cleared if it has a context, and ends holding nothing, having released exactly what it held |
| Rendering.LifetimeReleasesEachOnce | DXLib/src/RenderSystem.cpp:57-108 | From construction through `Initialize` and the destructor, nothing is held at the end. Each handle obtained is released exactly once, in the fixed order, whether `Initialize` failed or succeeded |
| FrameRate.Reset | DXLib/src/DXApp.cpp:32-33 | `Run` zeroes the frame counts and the bucket time and leaves the reported rate alone |
| FrameRate.CalculateFps | DXLib/src/DXApp.cpp:53-65 | The open bucket closes exactly when its time reaches a second. It then becomes the last bucket and the reported rate is its count. Otherwise the count goes up by one and the time by delta. The rate is the open count plus the last count times the part of a second the open bucket has not used, and is at least 1. Non-negative deltas keep the time in [0,1). The rate lies between the open count and the sum of both counts |
| FrameRate.CurrentFps | DXLib/include/DXApp.h:25 | The float rate cast to `int` truncates toward zero |
| FrameRate.CurrentFpsCountsOpenBucket | DXLib/src/DXApp.cpp:57-63 | With non-negative deltas the reported integer rate is never below the open bucket's count |
| FrameRate.ReplayDescribesHistory | DXLib/src/DXApp.cpp:53-61 | After any history of non-negative durations, the open bucket is the last `frames` durations, and their sum is the bucket time, below a second. Each bucket starts where the previous one closed, and a bucket closes at the first frame that brings its time to a second. Once a bucket has closed, the last one is the `lastFrames` durations before the open one |
| FrameRate.DescribesIsExact | DXLib/src/DXApp.cpp:53-61 | The history fixes the counter: two counters that both describe it have the same counts and bucket time |
| FrameRate.SteadyRateIsNearReciprocal | DXLib/src/DXApp.cpp:53-63 | With every frame taking the same time d > 0, once at least a second has passed the reported rate r satisfies 1 ≤ r·d < 1 + d: it is at least 1/d and less than one frame above it |
| FrameRate.SteadyCounter | DXLib/src/DXApp.cpp:53-63 | The same bound for any counter that describes a steady history of frames of length d and blends its two buckets as `CalculateFPS` does |
| FrameRate.RolloverReportsClosedBucket | DXLib/src/DXApp.cpp:57-63 | Right after a rollover the reported rate is exactly the count of the bucket just closed |
| AppLoop.NewApp | DXLib/src/DXApp.cpp:5-8 | A new application has a fresh window, a render system holding nothing, and a stopped timer |
| AppLoop.Quit | DXLib/src/DXApp.cpp:49-51 | Only the running flag changes, and it is lowered |
| AppLoop.Initialize | DXLib/src/DXApp.cpp:14-23 | A window error is returned at once with the renderer untouched. Otherwise the renderer's error is returned. OK means both came up: the window has a handle and the renderer is initialised and holds all five objects. Each error names the layer it came from |
| AppLoop.Begin | DXLib/src/DXApp.cpp:26-33 | Needs what a successful `Initialize` leaves: `SetVisible` asserts a created window, and the renderer must be up. Showing the window dispatches the messages it sends (`shown`) through `WindowProc` before the running flag is raised. Before the loop: running whatever those hooks did, no iteration yet, the trace is showing the window, the hooks those messages fire, then starting the timer. The window differs only in its close flag, the timer is started at the first reading, and the counter is zeroed |
| AppLoop.ShownQuitIsOverwritten | DXLib/src/DXApp.cpp:26-28 | When a message sent while the window is shown fires a hook that calls `Quit`, that hook is recorded between showing the window and starting the timer, and the loop is still running afterwards, because the running flag is raised after `SetVisible` |
| AppLoop.OpeningRecordsQuit | DXLib/src/Window.cpp:139-146 | The messages showing the window sends reach `WindowProc`, because the window pointer is stored at WM_CREATE. A quitting hook that one of them fires is among the opening events, strictly between showing the window and starting the timer |
| AppLoop.Step | DXLib/src/DXApp.cpp:35-46 | One iteration runs tick, count, pump, update, clear, render and present in that order. Afterwards the loop keeps running exactly when neither `OnUpdate`, `OnRender` nor any window hook the frame's messages fire calls `Quit` |
| AppLoop.Run | DXLib/src/DXApp.cpp:25-47 | Needs a successfully initialised application, as `Begin` does. For either dispatch of WM_ACTIVATE, any set of window hooks that call `Quit` and any messages sent while the window is shown, the trace is the opening events followed by the reference trace of the loop; those opening hooks never stop the loop. The loop ran up to and including the first frame that called `Quit`, or the whole script if none did. Only the window's close flag changed, and the renderer is untouched. With a clock that never goes back, the total is non-negative and the counter's bucket time stays in [0,1) |
| AppLoop.OneIterationPresentsOnce | DXLib/src/DXApp.cpp:36-45 | An iteration presents exactly once, as its last event, right after Update, Clear(black) and Render, and it begins with Tick, CalculateFPS and HandleMessages |
| AppLoop.PresentsCountIterations | DXLib/src/DXApp.cpp:35-46 | The loop presents once per iteration, and the number of iterations is the position of the first quitting frame |
| AppLoop.QuitInUpdateFinishesFrame | DXLib/src/DXApp.cpp:42-50 | A `Quit` in `OnUpdate` still lets that frame clear, render and present once, and no later frame runs |
| AppLoop.CloseStopsOnlyWhenHooked | DirectXProject1/Application.cpp:23-25 | WM_DESTROY raises the close flag, but with no window hook calling `Quit` the next frame still runs. When `OnClose` calls `Quit`, as the demo application's does, that frame is the last |
| AppLoop.FiredQuits | DXLib/src/Window.cpp:104-110 | The hooks `HandleMessages` calls for a batch include one that calls `Quit` exactly when one of the batch's messages fires such a hook, so whether a frame quits does not depend on the window |
| AppLoop.FocusQuitDependsOnDispatch | DXLib/src/Window.cpp:186-188 | With a focus hook that calls `Quit`, a plain deactivation ends the loop under one dispatch and not the other: `OnGainFocus` quitting stops it as written only, `OnLostFocus` quitting stops it once corrected only |

## Left out

- Win32 calls are not modelled; their outcomes are parameters. This covers `CreateWindowEx`, `AdjustWindowRect`, `PeekMessage`/`DispatchMessage`, `SetWindowPos`, `ShowWindow` and `SetWindowText`.
- The `GWL_USERDATA` pointer trick of `StaticWinProc` is not modelled: every message is assumed to reach `WindowProc`.
- Direct3D and DXGI calls become held/not-held flags and a `DeviceReport`. `FactoryFromDevice`, the back buffer and the depth texture are created and released locally, so they are not modelled.
- `Clear` and `Present` are only recorded as events.
- `DEBUG_HR` only shows a message box in debug builds. Every HRESULT it swallows is assumed to succeed, so every COM object a path creates is held.
- OS time sources are not modelled: `QueryPerformanceFrequency`/`Counter` and `timeGetTime` are a `TimeSource` and reading parameters.
- IEEE `float`/`double` behaviour is left out: rounding, NaN, infinity and the exact value of `FLT_EPSILON` arithmetic. Everything is over `real`, and `FloatEpsilon` is 2^-23 exactly.
- `Length`, `Normalize` and `GetUnit` need a square root and divide by zero on zero vectors.
- The operators, matrix methods and `Radians`/`Degrees` arithmetic live in `SimpleMath.inl` and `RadDeg.inl`, which are not part of this model.
- `dx::Vector2` is declared in `DXMath.h` but its methods are not written there.
- UINT and `int` widths are not modelled: sizes and frame counts are unbounded `nat`. `_frames` would overflow only after 2^31 frames within one second of clock time (a script of equal readings allows that), which is not modelled. `_msaaQualityLevel - 1` cannot wrap at 0, because the assert at DXLib/src/RenderSystem.cpp:160 becomes the requirement that an accepted device reports a positive level.
- `SetTitle` only reaches the OS.
- Which messages `ShowWindow` sends synchronously (WM_ACTIVATE, WM_SIZE and others) is up to the OS, so they are the parameter `shown` of `Begin` and `Run`. `SetVisible(false)` is never called by the core.
- The destructor's `DestroyWindow` (DXLib/src/Window.cpp:31-34) sends WM_DESTROY. That runs `OnClose` and raises the close flag once more after `Run` has returned. Destruction is not modelled.
- `IsVisible`, `GetTitle` and `GetRealWidth`'s use of `AdjustWindowRect` are reduced to `Chrome`, the border's extra width and height.
- `GetCurrentTPF` is `1/_fps`. `_fps` is never initialised, so a call before the first `CalculateFPS` reads an indeterminate value. After any `CalculateFPS` the rate is at least 1, as `FrameRate.CalculateFps` states, so the division is safe there.
- AppLoop.Run: the demo's `main` (DirectXProject1/WinMain.cpp:30-35) calls `Run` even after `Initialize` failed. The program then trips `SetVisible`'s handle assert or uses a null device context in `Clear`. The model does not cover that path: `Run` requires what a successful `Initialize` leaves.
- `OnInitialize` is declared in `DXApp` but never called.
- Timing.NewTimer: the constructor never initialises `_totalSeconds`, so its value is the parameter `indeterminateTotal`, and the contract says nothing about it.
- AppLoop.Run: the loop is unbounded in the program. The model runs over a finite script of frames, and an exhausted script leaves the loop still running.
- Timing.Start: the readings are taken as exact reals. The `double` conversion of a 64-bit counter is not modelled.

## Findings

| source | as written | input that shows it | evidently intended | confidence | as-written member | corrected member |
|---|---|---|---|---|---|---|
| DXLib/src/Timer.cpp:53-55 | `Resume` only asserts and never clears `_isPaused`, and nothing else clears it, so a paused timer never ticks again (`Timing.PauseIsPermanentAsWritten`) | Start, Pause, Resume, then Tick at a later reading: delta and total do not move | `Resume` clears the paused flag and ticking resumes from the resume time (`Timing.ResumeThenTick`) | not executed; high | Timing.ResumeAsWritten | Timing.Resume |
| DXLib/src/Window.cpp:186-188 | WM_ACTIVATE with `wParam == WA_INACTIVE` calls `OnGainFocus`, and every other wParam, including WA_ACTIVE and WA_CLICKACTIVE, calls `OnLostFocus` (`Windows.ActivateHooksSwapped`) | WM_ACTIVATE with wParam 0 (the window is being deactivated) | a deactivation (low word of wParam is WA_INACTIVE) calls `OnLostFocus`, and an activation calls `OnGainFocus` (`Windows.Dispatch`'s WM_ACTIVATE clause) | not executed; high | Windows.DispatchAsWritten | Windows.Dispatch |
| DXLib/src/Window.cpp:86-92 | `SetSize` writes the chrome-adjusted outer size into `_width`/`_height`, which `GetWidth`/`GetHeight` report as the client size (`Windows.SetSizeAsWrittenMisreports`) | `SetSize(800, 600)` on a window with any border: `GetWidth()` then returns more than 800 | store the requested client size and pass only the adjusted size to `SetWindowPos`, so that `GetWidth`/`GetHeight` report the requested size (the contract of `Windows.SetSize`) | not executed; medium | Windows.SetSizeAsWritten | Windows.SetSize |

=== FILE: AppLoop.dfy ===
/** The application shell `dx::DXApp` (DXLib/src/DXApp.cpp): a window that
    owns a render system, a timer and the frame-rate counter. `Initialize`
    brings up the window and then the renderer, stopping at the first error;
    `Run` loops over frames until `Quit` lowers the running flag, which is
    only looked at between iterations. The overridable hooks are recorded as
    events of a trace, and each frame's clock reading, pending messages and
    the hooks' decisions to quit are given by a script of frames. */
module AppLoop {
  import opened Errors
  import ComRelease
  import SimpleMath
  import Timing
  import FrameRate
  import Windows
  import Rendering

  datatype App = App(window: Windows.Window, renderer: Rendering.RenderSystem,
                     timer: Timing.Timer, counter: FrameRate.Counter, isRunning: bool)

  /** The constructor: a fresh window, render system and timer. The counter
      fields and the running flag are not set until `Run`, so they are
      whatever the caller passes in. */
  function NewApp(width: nat, height: nat, title: string, indeterminateTotal: real,
                  counter: FrameRate.Counter, isRunning: bool): (app: App)
    ensures app.window == Windows.NewWindow(width, height, title)
    ensures Rendering.NoneHeld(app.renderer) && !app.renderer.initOk
    ensures !app.timer.isRunning && !app.timer.isPaused
  {
    App(Windows.NewWindow(width, height, title), Rendering.NewRenderSystem(),
        Timing.NewTimer(indeterminateTotal), counter, isRunning)
  }

  /** `Quit` lowers the running flag and does nothing else. */
  function Quit(app: App): (r: App)
    ensures !r.isRunning
    ensures r.(isRunning := app.isRunning) == app
  {
    app.(isRunning := false)
  }

  // ---------------------------------------------------------------------
  // Initialize.

  datatype Startup = Startup(err: Error, app: App, classRegistered: bool, rendererAttempted: bool)

  /** `Initialize`: the window first; its error is returned at once and the
      renderer is not touched. Otherwise the renderer's result is returned. */
  function Initialize(app: App, chrome: Windows.Chrome, classRegistered: bool,
                      registerSucceeds: bool, created: Windows.Handle,
                      dev: Rendering.DeviceReport): (r: Startup)
    requires app.window.hwnd == Windows.NullHandle && app.renderer.device == ComRelease.Null
    requires Rendering.DeviceAccepted(dev) ==> dev.msaaQualityLevels > 0
    ensures var win := Windows.Initialize(app.window, chrome, classRegistered,
                                          registerSucceeds, created);
      && r.app.window == win.window && r.classRegistered == win.classRegistered
      && (win.err != OK ==> r.err == win.err && !r.rendererAttempted && r.app.renderer == app.renderer)
      && (win.err == OK ==> r.rendererAttempted
                            && r.err == Rendering.Initialize(app.renderer, win.window, dev).err)
    ensures !r.rendererAttempted ==> r.err != OK
    ensures r.err == OK ==> Ready(r.app)
    ensures !r.rendererAttempted ==> r.err in {WindowClassRegFail, WindowCreateFail}
    ensures r.rendererAttempted && r.err != OK ==>
      r.err in {RenderFeatureLevelTooLow, RenderFormatNotSupported}
    ensures r.app.timer == app.timer && r.app.counter == app.counter
    ensures r.app.isRunning == app.isRunning
  {
    var win := Windows.Initialize(app.window, chrome, classRegistered, registerSucceeds, created);
    if win.err != OK then
      Startup(win.err, app.(window := win.window), win.classRegistered, false)
    else
      var ren := Rendering.Initialize(app.renderer, win.window, dev);
      Startup(ren.err, app.(window := win.window, renderer := ren.rs), win.classRegistered, true)
  }

  // ---------------------------------------------------------------------
  // Run.

  /** What one iteration of the loop meets: the clock reading its `Tick`
      samples, the messages waiting for `HandleMessages`, and whether
      `OnUpdate` or `OnRender` call `Quit`. */
  datatype Frame = Frame(reading: real, messages: seq<Windows.Message>,
                         quitInUpdate: bool, quitInRender: bool)

  datatype Event =
    | ShowWindow
    | StartTimer
    | TickTimer
    | CountFrame
    | HandleMessages
    | WindowHook(hook: Windows.Hook)
    | Update
    | Clear(color: SimpleMath.Vector4f)
    | Render
    | Present

  function HookEvents(calls: seq<Windows.HookCall>): (es: seq<Event>)
    ensures |es| == |calls|
    ensures forall i :: 0 <= i < |es| ==> es[i] == WindowHook(calls[i].hook)
  {
    if |calls| == 0 then [] else [WindowHook(calls[0].hook)] + HookEvents(calls[1..])
  }

  /** The events of one iteration, in the order the loop body calls them. */
  function IterationEvents(calls: seq<Windows.HookCall>): seq<Event> {
    [TickTimer, CountFrame, HandleMessages] + HookEvents(calls)
      + [Update, Clear(SimpleMath.Zero4), Render, Present]
  }

  /** What the application's overrides do that the loop depends on: the
      window hooks that call `Quit` (the demo application's `OnClose` does),
      and whether WM_ACTIVATE is dispatched as `WindowProc` is written or
      with the corrected branch. */
  datatype Handlers = Handlers(quitters: set<Windows.Hook>, corrected: bool)

  /** Whether some hook of this frame calls `Quit`: `OnUpdate`, `OnRender`
      or a window hook the frame's messages fire. */
  predicate Quits(f: Frame, h: Handlers) {
    f.quitInUpdate || f.quitInRender || HooksQuit(f.messages, h)
  }

  /** Whether a window hook that one of the messages fires calls `Quit`. */
  predicate HooksQuit(msgs: seq<Windows.Message>, h: Handlers) {
    |msgs| > 0
    && (QuitsAmong(Windows.MessageHooks(msgs[0], h.corrected), h.quitters) || HooksQuit(msgs[1..], h))
  }

  /** Whether one of the hooks `hs` calls `Quit`. */
  predicate QuitsAmong(hs: seq<Windows.Hook>, quitters: set<Windows.Hook>) {
    |hs| > 0 && (hs[0] in quitters || QuitsAmong(hs[1..], quitters))
  }

  lemma {:induction false} QuitsAmongAppend(a: seq<Windows.Hook>, b: seq<Windows.Hook>,
                                            quitters: set<Windows.Hook>)
    ensures QuitsAmong(a + b, quitters) <==> QuitsAmong(a, quitters) || QuitsAmong(b, quitters)
    decreases |a|
  {
    if |a| > 0 {
      assert (a + b)[0] == a[0] && (a + b)[1..] == a[1..] + b;
      QuitsAmongAppend(a[1..], b, quitters);
    } else {
      assert a + b == b;
    }
  }

  /** The hooks `HandleMessages` calls for a batch quit exactly when one of
      the messages fires a quitting hook. */
  lemma {:induction false} FiredQuits(msgs: seq<Windows.Message>, h: Handlers)
    ensures QuitsAmong(Windows.Fired(msgs, h.corrected), h.quitters) <==> HooksQuit(msgs, h)
    decreases |msgs|
  {
    if |msgs| > 0 {
      FiredQuits(msgs[1..], h);
      QuitsAmongAppend(Windows.MessageHooks(msgs[0], h.corrected),
                       Windows.Fired(msgs[1..], h.corrected), h.quitters);
    }
  }

  lemma {:induction false} QuitsAmongIffMember(hs: seq<Windows.Hook>, quitters: set<Windows.Hook>)
    ensures QuitsAmong(hs, quitters) <==> exists k :: k in quitters && k in hs
    decreases |hs|
  {
    if |hs| > 0 {
      QuitsAmongIffMember(hs[1..], quitters);
      assert hs == [hs[0]] + hs[1..];
      if exists k :: k in quitters && k in hs {
        var k :| k in quitters && k in hs;
        if k != hs[0] {
          assert k in hs[1..];
        }
      }
    }
  }

  /** The reference trace of the loop: every frame runs to its end, and the
      loop stops after the first frame in which `Quit` was called. */
  function ReferenceTrace(w: Windows.Window, frames: seq<Frame>, h: Handlers): seq<Event>
    decreases |frames|
  {
    if |frames| == 0 then []
    else
      var pumped := Windows.Pump(w, frames[0].messages, h.corrected);
      IterationEvents(pumped.calls)
        + (if Quits(frames[0], h) then []
           else ReferenceTrace(pumped.window, frames[1..], h))
  }

  /** The number of iterations: up to and including the first quitting
      frame, or the whole script. */
  function Iterations(frames: seq<Frame>, h: Handlers): (n: nat)
    ensures n <= |frames|
  {
    if |frames| == 0 then 0
    else 1 + (if Quits(frames[0], h) then 0 else Iterations(frames[1..], h))
  }

  /** The clock never goes back, from the reading `Start` samples on. */
  predicate Monotone(start: real, frames: seq<Frame>) {
    && (forall i :: 0 <= i < |frames| ==> start <= frames[i].reading)
    && (forall i, j :: 0 <= i < j < |frames| ==> frames[i].reading <= frames[j].reading)
  }

  /** The loop's state between two iterations. */
  datatype Loop = Loop(window: Windows.Window, timer: Timing.Timer, counter: FrameRate.Counter,
                       running: bool, trace: seq<Event>, iterations: nat)

  /** What `Run` needs of a successful `Initialize`: `SetVisible` asserts a
      created window, and the loop's `Clear` and `Present` go through the
      context and the swap chain. */
  predicate Ready(app: App) {
    app.window.hwnd != Windows.NullHandle && app.renderer.initOk && Rendering.AllHeld(app.renderer)
  }

  /** The events before the loop: showing the window, the hooks that the
      messages it sends fire, and starting the timer. */
  function Opening(calls: seq<Windows.HookCall>): seq<Event> {
    [ShowWindow] + HookEvents(calls) + [StartTimer]
  }

  /** What `Run` does before the loop: show the window, raise the running
      flag, start the timer and zero the counter. Showing the window sends
      `shown` (WM_ACTIVATE, WM_SIZE, ...) straight to `WindowProc`, so their
      hooks run first; the running flag is raised after them, so a `Quit`
      from one of them is lost. */
  function Begin(app: App, src: Timing.TimeSource, startReading: real,
                 shown: seq<Windows.Message>, h: Handlers): (s: Loop)
    requires Ready(app) && Timing.ValidSource(src)
    ensures s.running && s.iterations == 0
    ensures var p := Windows.Pump(app.window, shown, h.corrected);
      s.trace == Opening(p.calls) && s.window == p.window
    ensures s.window.(shouldClose := app.window.shouldClose) == app.window
    ensures s.counter == FrameRate.Reset(app.counter)
    ensures s.timer == Timing.Start(app.timer, src, startReading)
  {
    var p := Windows.Pump(app.window, shown, h.corrected);
    Loop(p.window, Timing.Start(app.timer, src, startReading), FrameRate.Reset(app.counter),
         true, Opening(p.calls), 0)
  }

  /** A window hook that quits while the window is being shown is called,
      and recorded before the timer starts, but the loop is still running
      afterwards. */
  lemma ShownQuitIsOverwritten(app: App, src: Timing.TimeSource, startReading: real,
                               shown: seq<Windows.Message>, h: Handlers)
    requires Ready(app) && Timing.ValidSource(src)
    requires HooksQuit(shown, h)
    ensures var s := Begin(app, src, startReading, shown, h);
      && s.running
      && exists i :: 0 < i < |s.trace| - 1 && s.trace[i].WindowHook? && s.trace[i].hook in h.quitters
  {
    OpeningRecordsQuit(Windows.Pump(app.window, shown, h.corrected).calls, shown, h);
  }

  /** The opening events hold, between showing the window and starting the
      timer, the quitting hook that the shown messages fire. */
  lemma OpeningRecordsQuit(calls: seq<Windows.HookCall>, shown: seq<Windows.Message>, h: Handlers)
    requires Windows.Hooks(calls) == Windows.Fired(shown, h.corrected)
    requires HooksQuit(shown, h)
    ensures var es := Opening(calls);
      exists i :: 0 < i < |es| - 1 && es[i].WindowHook? && es[i].hook in h.quitters
  {
    QuittingCall(calls, shown, h);
    var j :| 0 <= j < |calls| && calls[j].hook in h.quitters;
    OpeningHook(calls, j);
  }

  /** When one of the messages fires a quitting hook, the calls they make
      include it. */
  lemma QuittingCall(calls: seq<Windows.HookCall>, msgs: seq<Windows.Message>, h: Handlers)
    requires Windows.Hooks(calls) == Windows.Fired(msgs, h.corrected)
    requires HooksQuit(msgs, h)
    ensures exists j :: 0 <= j < |calls| && calls[j].hook in h.quitters
  {
    var hs := Windows.Hooks(calls);
    FiredQuits(msgs, h);
    var j := QuittingIndex(hs, h.quitters);
    assert 0 <= j < |calls| && calls[j].hook in h.quitters;
  }

  /** The position of a quitting hook among `hs`. */
  lemma {:induction false} QuittingIndex(hs: seq<Windows.Hook>, quitters: set<Windows.Hook>)
    returns (j: nat)
    requires QuitsAmong(hs, quitters)
    ensures j < |hs| && hs[j] in quitters
    decreases |hs|
  {
    if hs[0] in quitters {
      j := 0;
    } else {
      var k := QuittingIndex(hs[1..], quitters);
      j := k + 1;
    }
  }

  lemma OpeningHook(calls: seq<Windows.HookCall>, j: nat)
    requires j < |calls|
    ensures |Opening(calls)| == |calls| + 2
    ensures Opening(calls)[1 + j] == WindowHook(calls[j].hook)
  {
    var hooks := HookEvents(calls);
    assert ([ShowWindow] + hooks + [StartTimer])[1 + j] == hooks[j];
  }

  /** The whole reference trace of `Run`: the opening events, then the
      reference trace of the loop over the shown window. */
  function RunTrace(app: App, shown: seq<Windows.Message>, frames: seq<Frame>,
                    h: Handlers): seq<Event>
  {
    var p := Windows.Pump(app.window, shown, h.corrected);
    Opening(p.calls) + ReferenceTrace(p.window, frames, h)
  }

  /** One iteration: tick, count the frame, pump the messages (the close
      hook quits when `h`), update, clear to black, render,
      present. A `Quit` from any hook lowers the flag but the iteration runs
      to its end. */
  function Step(s: Loop, f: Frame, h: Handlers): (r: Loop)
    requires s.timer.isRunning
    ensures r.running <==> !Quits(f, h)
    ensures r.iterations == s.iterations + 1
    ensures r.trace == s.trace + IterationEvents(Windows.Pump(s.window, f.messages, h.corrected).calls)
    ensures r.window == Windows.Pump(s.window, f.messages, h.corrected).window
    ensures r.timer == Timing.Tick(s.timer, f.reading) && r.timer.isRunning
    ensures r.timer.frequency == s.timer.frequency
    ensures r.counter == FrameRate.CalculateFps(s.counter, r.timer.deltaSeconds)
  {
    var timer := Timing.Tick(s.timer, f.reading);
    var counter := FrameRate.CalculateFps(s.counter, Timing.GetDeltaSeconds(timer));
    var pumped := Windows.Pump(s.window, f.messages, h.corrected);
    var hookQuits := QuitsAmong(Windows.Hooks(pumped.calls), h.quitters);
    FiredQuits(f.messages, h);
    var running := !hookQuits && !f.quitInUpdate && !f.quitInRender;
    Loop(pumped.window, timer, counter, running, s.trace + IterationEvents(pumped.calls),
         s.iterations + 1)
  }

  /** No frame before the `n`-th calls `Quit`. */
  predicate NoQuitBefore(frames: seq<Frame>, n: int, h: Handlers)
    requires n <= |frames|
  {
    forall j :: 0 <= j < n ==> !Quits(frames[j], h)
  }

  /** What the loop keeps of the timer and the counter while the clock does
      not go back: non-negative delta and total, the counter's bucket
      invariant, and no reading still to come below the last one. */
  predicate ClockKept(timer: Timing.Timer, counter: FrameRate.Counter, frames: seq<Frame>, i: nat) {
    && timer.deltaSeconds >= 0.0 && timer.totalSeconds >= 0.0
    && FrameRate.Valid(counter)
    && forall j :: i <= j < |frames| ==> timer.thisTick <= frames[j].reading
  }

  /** The part of the loop invariant about `Quit`: while running, no frame
      so far quit; once stopped, the last frame run was the first to quit. */
  predicate QuitsSoFar(frames: seq<Frame>, h: Handlers, s: Loop) {
    && s.iterations <= |frames|
    && (s.running ==> NoQuitBefore(frames, s.iterations, h))
    && (!s.running ==> s.iterations >= 1 && Quits(frames[s.iterations - 1], h)
                       && NoQuitBefore(frames, s.iterations - 1, h))
  }

  /** The part of the loop invariant about the trace: what was recorded,
      followed by the reference trace of the frames still to come, is the
      reference trace of the whole script. */
  predicate TraceSoFar(app: App, shown: seq<Windows.Message>, frames: seq<Frame>, h: Handlers,
                       s: Loop) {
    && s.iterations <= |frames|
    && (s.running ==> s.trace + ReferenceTrace(s.window, frames[s.iterations..], h)
                      == RunTrace(app, shown, frames, h))
    && (!s.running ==> s.trace == RunTrace(app, shown, frames, h))
  }

  /** The loop invariant of `Run`. */
  predicate LoopInvariant(app: App, src: Timing.TimeSource, startReading: real,
                          shown: seq<Windows.Message>, frames: seq<Frame>, h: Handlers, s: Loop)
  {
    && QuitsSoFar(frames, h, s)
    && TraceSoFar(app, shown, frames, h, s)
    && s.window.(shouldClose := app.window.shouldClose) == app.window
    && s.timer.isRunning && Timing.ValidSource(src) && s.timer.frequency == Timing.SecondsPerTick(src)
    && (Monotone(startReading, frames) ==> ClockKept(s.timer, s.counter, frames, s.iterations))
  }

  lemma LoopInvariantHoldsInitially(app: App, src: Timing.TimeSource, startReading: real,
                                    shown: seq<Windows.Message>, frames: seq<Frame>, h: Handlers)
    requires Ready(app) && Timing.ValidSource(src)
    ensures LoopInvariant(app, src, startReading, shown, frames, h,
                          Begin(app, src, startReading, shown, h))
  {
    assert frames[0..] == frames;
  }

  lemma QuitsSoFarKept(frames: seq<Frame>, h: Handlers, s: Loop)
    requires QuitsSoFar(frames, h, s) && s.timer.isRunning
    requires s.running && s.iterations < |frames|
    ensures QuitsSoFar(frames, h, Step(s, frames[s.iterations], h))
  {
    var i := s.iterations;
    var r := Step(s, frames[i], h);
    assert r.iterations == i + 1 && (r.running <==> !Quits(frames[i], h));
    if r.running {
      forall j | 0 <= j < i + 1
        ensures !Quits(frames[j], h)
      {
        if j < i {
          assert NoQuitBefore(frames, i, h);
        }
      }
      assert NoQuitBefore(frames, r.iterations, h);
    }
  }

  lemma TraceSoFarKept(app: App, shown: seq<Windows.Message>, frames: seq<Frame>, h: Handlers,
                       s: Loop)
    requires TraceSoFar(app, shown, frames, h, s) && s.timer.isRunning
    requires s.running && s.iterations < |frames|
    ensures TraceSoFar(app, shown, frames, h, Step(s, frames[s.iterations], h))
  {
    var i := s.iterations;
    var pumped := Windows.Pump(s.window, frames[i].messages, h.corrected);
    ReferenceStep(s.window, frames, i, h);
    TraceAppend(s.trace, IterationEvents(pumped.calls),
                if Quits(frames[i], h) then []
                else ReferenceTrace(pumped.window, frames[i + 1..], h),
                RunTrace(app, shown, frames, h));
  }

  lemma TraceAppend(done: seq<Event>, events: seq<Event>, later: seq<Event>, whole: seq<Event>)
    requires done + (events + later) == whole
    ensures (done + events) + later == whole
    ensures later == [] ==> done + events == whole
  {
  }

  lemma LoopInvariantKept(app: App, src: Timing.TimeSource, startReading: real,
                          shown: seq<Windows.Message>, frames: seq<Frame>, h: Handlers, s: Loop)
    requires LoopInvariant(app, src, startReading, shown, frames, h, s)
    requires s.running && s.iterations < |frames|
    ensures LoopInvariant(app, src, startReading, shown, frames, h,
                          Step(s, frames[s.iterations], h))
  {
    QuitsSoFarKept(frames, h, s);
    TraceSoFarKept(app, shown, frames, h, s);
    if Monotone(startReading, frames) {
      ClockStep(s.timer, s.counter, startReading, frames, s.iterations);
    }
  }

  /** What `Run` leaves: the trace is the reference trace, whatever the hooks
      fired by showing the window decide; the loop ran up to and including
      the first frame that called `Quit`, or over the whole script when none
      did; the window differs only in its close flag, the renderer is
      untouched, and with a clock that does not go back the timer total is
      non-negative and the counter keeps its bucket invariant. */
  predicate RunResult(app: App, src: Timing.TimeSource, startReading: real,
                      shown: seq<Windows.Message>, frames: seq<Frame>, h: Handlers,
                      trace: seq<Event>, final: App, iterations: nat)
    requires Timing.ValidSource(src)
  {
    && iterations <= |frames|
    && final.window.(shouldClose := app.window.shouldClose) == app.window
    && final.(window := app.window, timer := app.timer, counter := app.counter,
              isRunning := app.isRunning) == app
    && final.timer.isRunning && final.timer.frequency == Timing.SecondsPerTick(src)
    && (Monotone(startReading, frames) ==>
          FrameRate.Valid(final.counter) && final.timer.totalSeconds >= 0.0)
    && trace == RunTrace(app, shown, frames, h)
    && (final.isRunning ==> iterations == |frames|)
    && (forall j :: 0 <= j < iterations - 1 ==> !Quits(frames[j], h))
    && (!final.isRunning ==> iterations >= 1 && Quits(frames[iterations - 1], h))
    && (final.isRunning <==> forall j :: 0 <= j < |frames| ==> !Quits(frames[j], h))
  }

  /** `Run`: set up, then loop over the script while the running flag is up. */
  method Run(app: App, src: Timing.TimeSource, startReading: real,
             shown: seq<Windows.Message>, frames: seq<Frame>, h: Handlers)
    returns (trace: seq<Event>, final: App, iterations: nat)
    requires Ready(app) && Timing.ValidSource(src)
    ensures RunResult(app, src, startReading, shown, frames, h, trace, final, iterations)
  {
    var s := Begin(app, src, startReading, shown, h);
    LoopInvariantHoldsInitially(app, src, startReading, shown, frames, h);
    while s.running && s.iterations < |frames|
      invariant LoopInvariant(app, src, startReading, shown, frames, h, s)
      decreases |frames| - s.iterations
    {
      LoopInvariantKept(app, src, startReading, shown, frames, h, s);
      s := Step(s, frames[s.iterations], h);
    }
    trace := s.trace;
    iterations := s.iterations;
    final := App(s.window, app.renderer, s.timer, s.counter, s.running);
    LoopExit(app, src, startReading, shown, frames, h, s, trace, final, iterations);
  }

  /** What the loop invariant gives once the loop has stopped, either by
      `Quit` or because the script ran out: `Run`'s results. */
  lemma LoopExit(app: App, src: Timing.TimeSource, startReading: real,
                 shown: seq<Windows.Message>, frames: seq<Frame>, h: Handlers, s: Loop,
                 trace: seq<Event>, final: App, iterations: nat)
    requires LoopInvariant(app, src, startReading, shown, frames, h, s)
    requires !s.running || s.iterations >= |frames|
    requires trace == s.trace && iterations == s.iterations
    requires final == App(s.window, app.renderer, s.timer, s.counter, s.running)
    ensures RunResult(app, src, startReading, shown, frames, h, trace, final, iterations)
  {
    if s.running {
      assert frames[s.iterations..] == [];
      assert NoQuitBefore(frames, |frames|, h);
    }
  }

  /** One frame of the reference trace. */
  lemma ReferenceStep(w: Windows.Window, frames: seq<Frame>, i: nat, h: Handlers)
    requires i < |frames|
    ensures var pumped := Windows.Pump(w, frames[i].messages, h.corrected);
      ReferenceTrace(w, frames[i..], h)
        == IterationEvents(pumped.calls)
           + (if Quits(frames[i], h) then []
              else ReferenceTrace(pumped.window, frames[i + 1..], h))
  {
    assert frames[i..][0] == frames[i];
    assert frames[i..][1..] == frames[i + 1..];
  }

  /** One frame of the timer and the counter: with a clock that never goes
      back, the delta is non-negative, so the total does not drop and the
      counter keeps its bucket invariant. */
  lemma ClockStep(timer: Timing.Timer, counter: FrameRate.Counter, startReading: real,
                  frames: seq<Frame>, i: nat)
    requires i < |frames| && timer.isRunning && timer.frequency > 0.0
    requires Monotone(startReading, frames)
    requires ClockKept(timer, counter, frames, i)
    ensures var t := Timing.Tick(timer, frames[i].reading);
      ClockKept(t, FrameRate.CalculateFps(counter, Timing.GetDeltaSeconds(t)), frames, i + 1)
  {
    var t := Timing.Tick(timer, frames[i].reading);
    if !timer.isPaused {
      var step := frames[i].reading - timer.thisTick;
      assert step >= 0.0;
      assert t.deltaSeconds == step * timer.frequency;
      assert t.deltaSeconds >= 0.0;
    }
  }

  // ---------------------------------------------------------------------
  // Properties of the loop's trace.

  function Presents(es: seq<Event>): nat {
    if |es| == 0 then 0 else (if es[0] == Present then 1 else 0) + Presents(es[1..])
  }

  lemma {:induction false} PresentsAppend(a: seq<Event>, b: seq<Event>)
    ensures Presents(a + b) == Presents(a) + Presents(b)
    decreases |a|
  {
    if |a| == 0 {
      assert a + b == b;
    } else {
      assert (a + b)[1..] == a[1..] + b;
      PresentsAppend(a[1..], b);
    }
  }

  lemma {:induction false} NoPresentAmongHooks(calls: seq<Windows.HookCall>)
    ensures Presents(HookEvents(calls)) == 0
    decreases |calls|
  {
    if |calls| > 0 {
      var es := HookEvents(calls);
      assert es[1..] == HookEvents(calls[1..]);
      NoPresentAmongHooks(calls[1..]);
    }
  }

  /** Every iteration presents exactly once, as its last event, after
      clearing and rendering. */
  lemma OneIterationPresentsOnce(calls: seq<Windows.HookCall>)
    ensures var es := IterationEvents(calls);
      && Presents(es) == 1
      && es[|es| - 1] == Present && es[|es| - 2] == Render
      && es[|es| - 3] == Clear(SimpleMath.Zero4) && es[|es| - 4] == Update
      && es[..3] == [TickTimer, CountFrame, HandleMessages]
  {
    var hooks := HookEvents(calls);
    PresentsAppend([TickTimer, CountFrame, HandleMessages], hooks);
    PresentsAppend([TickTimer, CountFrame, HandleMessages] + hooks,
                   [Update, Clear(SimpleMath.Zero4), Render, Present]);
    NoPresentAmongHooks(calls);
    var head: seq<Event> := [TickTimer, CountFrame, HandleMessages];
    assert Presents(head) == 0 by {
      assert head[1..][1..][1..] == [];
    }
    var tail: seq<Event> := [Update, Clear(SimpleMath.Zero4), Render, Present];
    assert Presents(tail) == 1 by {
      assert tail[1..][1..][1..] == [Present];
      assert tail[1..][1..][1..][1..] == [];
      assert Presents(tail[1..][1..][1..]) == 1;
      assert Presents(tail[1..][1..]) == 1;
      assert Presents(tail[1..]) == 1;
    }
  }

  /** The loop presents once per iteration, and the number of iterations is
      the position of the first quitting frame. */
  lemma {:induction false} PresentsCountIterations(w: Windows.Window, frames: seq<Frame>,
                                                   h: Handlers)
    ensures Presents(ReferenceTrace(w, frames, h)) == Iterations(frames, h)
    decreases |frames|
  {
    if |frames| > 0 {
      var pumped := Windows.Pump(w, frames[0].messages, h.corrected);
      OneIterationPresentsOnce(pumped.calls);
      var rest := if Quits(frames[0], h) then []
                  else ReferenceTrace(pumped.window, frames[1..], h);
      PresentsAppend(IterationEvents(pumped.calls), rest);
      if !Quits(frames[0], h) {
        PresentsCountIterations(pumped.window, frames[1..], h);
      }
    }
  }

  /** `Quit` from `OnUpdate` does not cut the frame short: that frame is
      cleared, rendered and presented once, and no further frame runs. */
  lemma QuitInUpdateFinishesFrame(w: Windows.Window, f: Frame, rest: seq<Frame>, h: Handlers)
    requires f.quitInUpdate
    ensures ReferenceTrace(w, [f] + rest, h)
            == IterationEvents(Windows.Pump(w, f.messages, h.corrected).calls)
    ensures Presents(ReferenceTrace(w, [f] + rest, h)) == 1
  {
    OneIterationPresentsOnce(Windows.Pump(w, f.messages, h.corrected).calls);
    assert ([f] + rest)[0] == f;
  }

  /** Without a window hook that quits, a closed window does not stop the
      loop: the next frame still runs. When the close hook quits, the frame
      with WM_DESTROY is the last. */
  lemma CloseStopsOnlyWhenHooked(w: Windows.Window, f: Frame, rest: seq<Frame>, h: Handlers)
    requires Windows.HasDestroy(f.messages)
    requires !f.quitInUpdate && !f.quitInRender
    ensures var none := Handlers({}, h.corrected);
      ReferenceTrace(w, [f] + rest, none)
        == IterationEvents(Windows.Pump(w, f.messages, h.corrected).calls)
           + ReferenceTrace(Windows.Pump(w, f.messages, h.corrected).window, rest, none)
    ensures Windows.IsCloseRequested(Windows.Pump(w, f.messages, h.corrected).window)
    ensures Windows.OnClose in h.quitters ==>
      ReferenceTrace(w, [f] + rest, h) == IterationEvents(Windows.Pump(w, f.messages, h.corrected).calls)
  {
    var frames := [f] + rest;
    assert frames[0] == f && frames[1..] == rest;
    var fired := Windows.Fired(f.messages, h.corrected);
    QuitsAmongIffMember(fired, {});
    FiredQuits(f.messages, Handlers({}, h.corrected));
    assert !Quits(f, Handlers({}, h.corrected));
    if Windows.OnClose in h.quitters {
      QuitsAmongIffMember(fired, h.quitters);
      FiredQuits(f.messages, h);
      assert Windows.OnClose in fired;
      assert Quits(f, h);
    }
  }

  /** When a focus hook calls `Quit`, the swapped WM_ACTIVATE branch changes
      which frame ends the loop: with `OnGainFocus` quitting, a plain
      deactivation stops the loop as written but not once corrected, and
      with `OnLostFocus` quitting the other way round. */
  lemma FocusQuitDependsOnDispatch(f: Frame)
    requires f.messages == [Windows.Activate(Windows.WA_INACTIVE)]
    requires !f.quitInUpdate && !f.quitInRender
    ensures Quits(f, Handlers({Windows.OnGainFocus}, false))
    ensures !Quits(f, Handlers({Windows.OnGainFocus}, true))
    ensures !Quits(f, Handlers({Windows.OnLostFocus}, false))
    ensures Quits(f, Handlers({Windows.OnLostFocus}, true))
  {
    var deactivate := Windows.Activate(Windows.WA_INACTIVE);
    assert f.messages[0] == deactivate && f.messages[1..] == [];
    assert Windows.MessageHooks(deactivate, false) == [Windows.OnGainFocus];
    assert Windows.MessageHooks(deactivate, true) == [Windows.OnLostFocus];
    assert [Windows.OnGainFocus][1..] == [] && [Windows.OnLostFocus][1..] == [];
    assert !QuitsAmong([Windows.OnLostFocus], {Windows.OnGainFocus});
    assert !QuitsAmong([Windows.OnGainFocus], {Windows.OnLostFocus});
    assert !HooksQuit(f.messages[1..], Handlers({Windows.OnGainFocus}, true));
    assert !HooksQuit(f.messages[1..], Handlers({Windows.OnLostFocus}, false));
  }
}

=== FILE: ComRelease.dfy ===
/** The `ReleaseCom` helper of DXLib/src/Util.h: release a COM interface
    pointer if it is non-null, then null it. A pointer is modelled as held or
    null; the `Release` call it makes is reported as a flag. */
module ComRelease {

  datatype ComPtr = Null | Held

  /** The pointer left behind and whether `Release` was invoked on it. */
  datatype Released = Released(ptr: ComPtr, releaseCalled: bool)

  function ReleaseCom(p: ComPtr): (r: Released)
    ensures r.ptr == Null
    ensures r.releaseCalled <==> p == Held
  {
    Released(Null, p.Held?)
  }

  /** A second `ReleaseCom` on the same pointer makes no `Release` call and
      leaves it null, so releasing is idempotent. */
  lemma ReleaseComIdempotent(p: ComPtr)
    ensures ReleaseCom(ReleaseCom(p).ptr) == Released(Null, false)
  {
  }
}

=== FILE: DXMath.dfy ===
/** The inline helpers of DXLib/include/DXMath.h, over `real`: the range and
    tolerance comparisons, equality of the angle type `Radians`, and the
    conversions between `Radians` and `Degrees`. The library defines its own
    constants in the `dx` namespace (DXLib/src/DXMath.cpp), separate from the
    ones of SimpleMath. */
module DXMath {

  const Pi: real := 3.14159265359
  const PiOver2: real := Pi / 2.0
  const PiOver180: real := Pi / 180.0

  /** FLT_EPSILON, the gap between 1.0f and the next float: 2^-23. */
  const FloatEpsilon: real := 1.0 / 8388608.0

  /** Whether `value` lies strictly within `delta` of `mark`. */
  function InRange(value: real, mark: real, delta: real): bool {
    value > mark - delta && value < mark + delta
  }

  function Abs(x: real): real {
    if x < 0.0 then -x else x
  }

  /** `InRange` is a strict distance test: both bounds are excluded, and a
      non-positive tolerance admits nothing. */
  lemma InRangeIsStrictDistance(value: real, mark: real, delta: real)
    ensures InRange(value, mark, delta) <==> Abs(value - mark) < delta
    ensures !InRange(mark + delta, mark, delta) && !InRange(mark - delta, mark, delta)
    ensures delta <= 0.0 ==> !InRange(value, mark, delta)
  {
  }

  /** The two range checks of the unit tests: one epsilon away is out of an
      epsilon range, and inside a slightly wider one. */
  lemma InRangeTestCases()
    ensures !InRange(1.0 + FloatEpsilon, 1.0, FloatEpsilon)
    ensures InRange(1.0 + FloatEpsilon, 1.0, FloatEpsilon + 0.0001)
  {
  }

  function FloatEquals(f1: real, f2: real): bool {
    Abs(f1 - f2) < FloatEpsilon
  }

  /** Tolerance equality is symmetric, reflexive, and is the same test as an
      epsilon range around either argument. */
  lemma FloatEqualsProperties(f1: real, f2: real)
    ensures FloatEquals(f1, f2) == FloatEquals(f2, f1)
    ensures FloatEquals(f1, f1)
    ensures FloatEquals(f1, f2) == InRange(f1, f2, FloatEpsilon)
    ensures FloatEquals(f1, f2) ==> -FloatEpsilon < f1 - f2 < FloatEpsilon
  {
    InRangeIsStrictDistance(f1, f2, FloatEpsilon);
  }

  datatype Radians = Radians(value: real)
  datatype Degrees = Degrees(value: real)

  function RadiansEqual(r1: Radians, r2: Radians): bool {
    FloatEquals(r1.value, r2.value)
  }

  function RadiansEqualsFloat(r: Radians, f: real): bool {
    FloatEquals(r.value, f)
  }

  /** `float == Radians` is written as the mirrored `Radians == float`. */
  function FloatEqualsRadians(f: real, r: Radians): bool {
    RadiansEqualsFloat(r, f)
  }

  /** Both mixed comparisons give the same answer, and both are the
      tolerance comparison of the angle's value with the float. */
  lemma MixedEqualityAgrees(r: Radians, f: real)
    ensures RadiansEqualsFloat(r, f) == FloatEqualsRadians(f, r)
    ensures RadiansEqualsFloat(r, f) == RadiansEqual(r, Radians(f))
    ensures RadiansEqualsFloat(r, f) == FloatEquals(f, r.value)
  {
    FloatEqualsProperties(r.value, f);
  }

  /** The comparisons of the unit tests: an angle of Pi equals Pi from both
      sides and differs from 1. */
  lemma ComparingTestCases()
    ensures RadiansEqualsFloat(Radians(Pi), Pi) && FloatEqualsRadians(Pi, Radians(Pi))
    ensures !RadiansEqualsFloat(Radians(Pi), 1.0) && !FloatEqualsRadians(1.0, Radians(Pi))
  {
  }

  function ToDegrees(r: Radians): Degrees {
    Degrees(r.value / PiOver180)
  }

  function ToRadians(d: Degrees): Radians {
    Radians(d.value * PiOver180)
  }

  /** The conversions are inverse to each other. */
  lemma ConversionRoundTrip(d: Degrees, r: Radians)
    ensures ToDegrees(ToRadians(d)) == d
    ensures ToRadians(ToDegrees(r)) == r
  {
  }

  /** The conversions of the unit tests hold exactly over the reals. */
  lemma ConversionTestCases()
    ensures ToDegrees(Radians(Pi)) == Degrees(180.0)
    ensures ToRadians(Degrees(180.0)) == Radians(Pi)
    ensures ToDegrees(Radians(PiOver2)) == Degrees(90.0)
  {
  }
}

=== FILE: Errors.dfy ===
/** The flat error enumeration every initialisation routine of the library
    returns by value (DXLib/include/Err.h). */
module Errors {

  datatype Error =
    | OK
      // Attempt to register the window class when it was already registered.
    | WindowClassAlreadyRegistered
      // RegisterClass failed.
    | WindowClassRegFail
      // CreateWindowEx returned a null handle.
    | WindowCreateFail
      // Initialize() was called on a window that already has a handle.
    | WindowAlreadyCreated
      // Generic renderer initialisation failure.
    | RenderInitFail
      // The device reported a feature level other than 11_0.
    | RenderFeatureLevelTooLow
      // The default back-buffer format lacks the required support bit.
    | RenderFormatNotSupported

  /** The numeric value of each enumerator: OK is 0, the first error is
      pinned to 1 and the rest follow in declaration order. */
  function Code(e: Error): (n: nat)
    ensures e == OK <==> n == 0
    ensures n <= 7
  {
    match e
    case OK => 0
    case WindowClassAlreadyRegistered => 1
    case WindowClassRegFail => 2
    case WindowCreateFail => 3
    case WindowAlreadyCreated => 4
    case RenderInitFail => 5
    case RenderFeatureLevelTooLow => 6
    case RenderFormatNotSupported => 7
  }

  /** Reads an enumerator back from its numeric value. */
  function FromCode(n: nat): (e: Error)
    requires n <= 7
    ensures Code(e) == n
  {
    if n == 0 then OK
    else if n == 1 then WindowClassAlreadyRegistered
    else if n == 2 then WindowClassRegFail
    else if n == 3 then WindowCreateFail
    else if n == 4 then WindowAlreadyCreated
    else if n == 5 then RenderInitFail
    else if n == 6 then RenderFeatureLevelTooLow
    else RenderFormatNotSupported
  }

  /** Every enumerator has its own value: reading a code back gives the
      enumerator it came from, so two distinct errors never share a code. */
  lemma CodeRoundTrip(e: Error)
    ensures FromCode(Code(e)) == e
  {
    match e
    case OK =>
    case WindowClassAlreadyRegistered =>
    case WindowClassRegFail =>
    case WindowCreateFail =>
    case WindowAlreadyCreated =>
    case RenderInitFail =>
    case RenderFeatureLevelTooLow =>
    case RenderFormatNotSupported =>
  }

  lemma CodeInjective(e1: Error, e2: Error)
    ensures Code(e1) == Code(e2) ==> e1 == e2
  {
    CodeRoundTrip(e1);
    CodeRoundTrip(e2);
  }
}

=== FILE: FrameRate.dfy ===
/** The rolling frame-rate counter of `DXApp::CalculateFPS`
    (DXLib/src/DXApp.cpp). Frames are counted into one-second buckets: every
    frame adds one to the open bucket and its duration to the bucket's time;
    once that time reaches a second the bucket is closed, its count kept as
    the last bucket's, and a new bucket opened. The reported rate blends the
    open bucket with the share of the last one that still lies within the
    past second. The `double` fields are `real` here. */
module FrameRate {

  datatype Counter = Counter(frames: nat, lastFrames: nat, frameTime: real, fps: real)

  /** What `Run` zeroes before its first iteration. `_fps` is not reset. */
  function Reset(c: Counter): (r: Counter)
    ensures r.frames == 0 && r.lastFrames == 0 && r.frameTime == 0.0
    ensures r.fps == c.fps
  {
    c.(frames := 0, lastFrames := 0, frameTime := 0.0)
  }

  /** The time kept in the open bucket is always part of a second. */
  predicate Valid(c: Counter) {
    0.0 <= c.frameTime < 1.0
  }

  /** One call of `CalculateFPS` with the timer's delta of this frame. */
  function CalculateFps(c: Counter, delta: real): (r: Counter)
    // A bucket closes exactly when its time reaches a second.
    ensures r.frames == 0 <==> c.frameTime + delta >= 1.0
    ensures c.frameTime + delta >= 1.0 ==>
      r.lastFrames == c.frames + 1 && r.frameTime == 0.0 && r.fps == r.lastFrames as real
    ensures c.frameTime + delta < 1.0 ==>
      && r.frames == c.frames + 1 && r.lastFrames == c.lastFrames
      && r.frameTime == c.frameTime + delta
    // The reported rate blends the open bucket with the share of the last
    // bucket that lies within the past second.
    ensures r.fps == r.frames as real + r.lastFrames as real * (1.0 - r.frameTime)
    // Every call has counted at least the frame it was called for.
    ensures r.fps >= 1.0
    // The bucket invariant is kept by frames of non-negative duration.
    ensures Valid(c) && delta >= 0.0 ==> Valid(r)
    // The blended rate lies between the open bucket's count and the sum of
    // both buckets' counts.
    ensures Valid(r) ==> r.frames as real <= r.fps <= r.frames as real + r.lastFrames as real
  {
    var frames := c.frames + 1;
    var frameTime := c.frameTime + delta;
    var closed := frameTime >= 1.0;
    var lastFrames := if closed then frames else c.lastFrames;
    var frames' := if closed then 0 else frames;
    var frameTime' := if closed then 0.0 else frameTime;
    var r := Counter(frames', lastFrames, frameTime',
                     frames' as real + lastFrames as real * (1.0 - frameTime'));
    BlendBounds(frames', lastFrames, frameTime');
    assert frameTime' < 1.0 && (closed ==> lastFrames >= 1) && (!closed ==> frames' >= 1);
    assert 0.0 <= lastFrames as real * (1.0 - frameTime');
    r
  }

  lemma BlendBounds(frames: nat, lastFrames: nat, frameTime: real)
    ensures 0.0 <= frameTime < 1.0 ==>
      && frames as real <= frames as real + lastFrames as real * (1.0 - frameTime)
      && frames as real + lastFrames as real * (1.0 - frameTime) <= frames as real + lastFrames as real
  {
    if 0.0 <= frameTime < 1.0 {
      var l := lastFrames as real;
      assert l * (1.0 - frameTime) == l - l * frameTime;
      assert 0.0 <= l * frameTime;
    }
  }

  /** `GetCurrentFPS`: the float rate cast to `int`, which truncates toward
      zero. */
  function CurrentFps(c: Counter): (n: int)
    ensures c.fps >= 0.0 ==> n >= 0 && n as real <= c.fps < n as real + 1.0
    ensures c.fps < 0.0 ==> n <= 0 && n as real - 1.0 < c.fps <= n as real
  {
    if c.fps >= 0.0 then c.fps.Floor else -((-c.fps).Floor)
  }

  /** The reported rate is never below the number of frames in the open
      bucket. */
  lemma CurrentFpsCountsOpenBucket(c: Counter, delta: real)
    requires Valid(c) && delta >= 0.0
    ensures CurrentFps(CalculateFps(c, delta)) >= CalculateFps(c, delta).frames
  {
  }

  // ---------------------------------------------------------------------
  // The counter against the history of frame durations.

  /** The total duration of frames `j` up to but not including `k`. */
  function Sum(ds: seq<real>, j: nat, k: nat): real
    requires j <= k <= |ds|
    decreases k - j
  {
    if j == k then 0.0 else Sum(ds, j, k - 1) + ds[k - 1]
  }

  predicate NonNegative(ds: seq<real>) {
    forall i :: 0 <= i < |ds| ==> ds[i] >= 0.0
  }

  /** The counter after `Run`'s reset and one `CalculateFps` per frame. */
  function Replay(c: Counter, ds: seq<real>): Counter {
    if |ds| == 0 then Reset(c)
    else CalculateFps(Replay(c, ds[..|ds| - 1]), ds[|ds| - 1])
  }

  /** The bucket that starts after `j` frames ends after `k`: frame `k` is
      the first to bring its time to a second. */
  predicate Closes(ds: seq<real>, j: nat, k: nat)
    requires j < k <= |ds|
  {
    Sum(ds, j, k) >= 1.0 && Sum(ds, j, k - 1) < 1.0
  }

  /** A bucket starts after the first `k` frames: `k` is 0, or the bucket
      started at an earlier boundary closes exactly at `k`. */
  predicate Boundary(ds: seq<real>, k: nat)
    decreases k
  {
    k <= |ds| &&
    (k == 0 || exists j {:trigger Closes(ds, j, k)} :: 0 <= j < k && Boundary(ds, j) && Closes(ds, j, k))
  }

  /** What the counter holds, read off the history: the open bucket is every
      frame since the last bucket boundary, and its time is their sum, below a
      second; the last closed bucket is the `lastFrames` frames just before
      it, starting at a boundary and closing at the first frame that brings
      it to a second. Before the first bucket closes every frame is in the
      open one and no last bucket exists. */
  predicate Describes(r: Counter, ds: seq<real>) {
    && r.frames <= |ds|
    && r.frameTime == Sum(ds, |ds| - r.frames, |ds|)
    && 0.0 <= r.frameTime < 1.0
    && Boundary(ds, |ds| - r.frames)
    && (r.frames == |ds| ==> r.lastFrames == 0)
    && (r.frames < |ds| ==>
          && 1 <= r.lastFrames <= |ds| - r.frames
          && Boundary(ds, |ds| - r.frames - r.lastFrames)
          && Closes(ds, |ds| - r.frames - r.lastFrames, |ds| - r.frames))
  }

  lemma {:induction false} ReplayDescribesHistory(c: Counter, ds: seq<real>)
    requires NonNegative(ds)
    ensures Describes(Replay(c, ds), ds)
    decreases |ds|
  {
    if |ds| > 0 {
      var p := ds[..|ds| - 1];
      var d := ds[|ds| - 1];
      assert NonNegative(p) by {
        forall i | 0 <= i < |p| ensures p[i] >= 0.0 {
          assert p[i] == ds[i];
        }
      }
      ReplayDescribesHistory(c, p);
      assert ds == p + [d];
      if Replay(c, p).frameTime + d >= 1.0 {
        ClosingStep(Replay(c, p), p, d);
      } else {
        OpenStep(Replay(c, p), p, d);
      }
    }
  }

  /** Appending a frame changes no sum over earlier frames. */
  lemma {:induction false} SumExtends(p: seq<real>, d: real, j: nat, k: nat)
    requires j <= k <= |p|
    ensures Sum(p + [d], j, k) == Sum(p, j, k)
    decreases k - j
  {
    if j < k {
      SumExtends(p, d, j, k - 1);
      assert (p + [d])[k - 1] == p[k - 1];
    }
  }

  /** The appended frame adds its duration to every bucket reaching the end. */
  lemma SumAppended(p: seq<real>, d: real, j: nat)
    requires j <= |p|
    ensures Sum(p + [d], j, |p| + 1) == Sum(p, j, |p|) + d
  {
    SumExtends(p, d, j, |p|);
  }

  /** A boundary of a history stays one when a frame is appended. */
  lemma {:induction false} BoundaryExtends(p: seq<real>, d: real, k: nat)
    requires Boundary(p, k)
    ensures Boundary(p + [d], k)
    decreases k
  {
    if k > 0 {
      var j :| 0 <= j < k && Boundary(p, j) && Closes(p, j, k);
      BoundaryExtends(p, d, j);
      SumExtends(p, d, j, k);
      SumExtends(p, d, j, k - 1);
      assert Closes(p + [d], j, k);
    }
  }

  /** The frame that brings the open bucket to a second closes it at a new
      boundary. */
  lemma ClosingBoundary(p: seq<real>, d: real, lo: nat)
    requires lo <= |p| && Boundary(p, lo)
    requires Sum(p, lo, |p|) < 1.0 && Sum(p, lo, |p|) + d >= 1.0
    ensures Boundary(p + [d], lo) && Closes(p + [d], lo, |p| + 1)
    ensures Boundary(p + [d], |p| + 1)
  {
    BoundaryExtends(p, d, lo);
    SumAppended(p, d, lo);
    SumExtends(p, d, lo, |p|);
    assert Closes(p + [d], lo, |p| + 1);
  }

  /** A frame that keeps the open bucket below a second moves no boundary. */
  lemma OpenBoundaries(p: seq<real>, d: real, lo: nat, hi: nat)
    requires lo < hi <= |p| && Boundary(p, lo) && Closes(p, lo, hi)
    ensures Boundary(p + [d], lo) && Closes(p + [d], lo, hi)
  {
    BoundaryExtends(p, d, lo);
    SumExtends(p, d, lo, hi);
    SumExtends(p, d, lo, hi - 1);
  }

  lemma ClosingStep(prev: Counter, p: seq<real>, d: real)
    requires Describes(prev, p) && d >= 0.0
    requires prev.frameTime + d >= 1.0
    ensures Describes(CalculateFps(prev, d), p + [d])
  {
    var r := CalculateFps(prev, d);
    assert r.frames == 0 && r.lastFrames == prev.frames + 1 && r.frameTime == 0.0;
    ClosingBoundary(p, d, |p| - prev.frames);
  }

  lemma OpenStep(prev: Counter, p: seq<real>, d: real)
    requires Describes(prev, p) && d >= 0.0
    requires prev.frameTime + d < 1.0
    ensures Describes(CalculateFps(prev, d), p + [d])
  {
    var r := CalculateFps(prev, d);
    var hi := |p| - prev.frames;
    assert r.frames == prev.frames + 1 && r.lastFrames == prev.lastFrames;
    assert r.frameTime == prev.frameTime + d;
    SumAppended(p, d, hi);
    BoundaryExtends(p, d, hi);
    if prev.frames < |p| {
      OpenBoundaries(p, d, hi - prev.lastFrames, hi);
    }
  }

  // ---------------------------------------------------------------------
  // The history determines the counter.

  lemma {:induction false} SumSplit(ds: seq<real>, i: nat, j: nat, k: nat)
    requires i <= j <= k <= |ds|
    ensures Sum(ds, i, k) == Sum(ds, i, j) + Sum(ds, j, k)
    decreases k - j
  {
    if j < k {
      SumSplit(ds, i, j, k - 1);
    }
  }

  lemma {:induction false} SumNonNegative(ds: seq<real>, j: nat, k: nat)
    requires NonNegative(ds) && j <= k <= |ds|
    ensures Sum(ds, j, k) >= 0.0
    decreases k - j
  {
    if j < k {
      SumNonNegative(ds, j, k - 1);
    }
  }

  /** With no negative durations, a longer bucket never sums to less. */
  lemma SumMonotone(ds: seq<real>, i: nat, j: nat, k: nat)
    requires NonNegative(ds) && i <= j <= k <= |ds|
    ensures Sum(ds, i, j) <= Sum(ds, i, k)
  {
    SumSplit(ds, i, j, k);
    SumNonNegative(ds, j, k);
  }

  /** Between any two boundaries lies at least a second. */
  lemma {:induction false} BoundariesApart(ds: seq<real>, a: nat, b: nat)
    requires NonNegative(ds) && a < b
    requires Boundary(ds, a) && Boundary(ds, b)
    ensures Sum(ds, a, b) >= 1.0
    decreases b
  {
    var j :| 0 <= j < b && Boundary(ds, j) && Closes(ds, j, b);
    if j < a {
      // The bucket from `j` would reach a second at `a`, before `b`.
      BoundariesApart(ds, j, a);
      SumMonotone(ds, j, a, b - 1);
      assert false;
    } else if a < j {
      BoundariesApart(ds, a, j);
      SumSplit(ds, a, j, b);
      SumNonNegative(ds, j, b);
    }
  }

  /** The open bucket starts at the last boundary. */
  lemma OpenBucketStartsAtLastBoundary(ds: seq<real>, r: Counter, b: nat)
    requires NonNegative(ds) && Describes(r, ds) && Boundary(ds, b)
    ensures b <= |ds| - r.frames
  {
    var h := |ds| - r.frames;
    if h < b {
      BoundariesApart(ds, h, b);
      SumMonotone(ds, h, b, |ds|);
      assert false;
    }
  }

  /** A closed bucket contains no boundary. */
  lemma NoBoundaryInsideBucket(ds: seq<real>, lo: nat, hi: nat, b: nat)
    requires NonNegative(ds) && lo < hi <= |ds|
    requires Boundary(ds, lo) && Closes(ds, lo, hi) && Boundary(ds, b) && b < hi
    ensures b <= lo
  {
    if lo < b {
      BoundariesApart(ds, lo, b);
      SumMonotone(ds, lo, b, hi - 1);
      assert false;
    }
  }

  /** The history pins the counter down: two counters that both describe it
      agree on every bucket field, so each is the one `Replay` yields. */
  lemma DescribesIsExact(ds: seq<real>, r1: Counter, r2: Counter)
    requires NonNegative(ds) && Describes(r1, ds) && Describes(r2, ds)
    ensures r1.frames == r2.frames && r1.lastFrames == r2.lastFrames
    ensures r1.frameTime == r2.frameTime
  {
    OpenBucketStartsAtLastBoundary(ds, r1, |ds| - r2.frames);
    OpenBucketStartsAtLastBoundary(ds, r2, |ds| - r1.frames);
    var h := |ds| - r1.frames;
    if r1.frames < |ds| {
      NoBoundaryInsideBucket(ds, h - r1.lastFrames, h, h - r2.lastFrames);
      NoBoundaryInsideBucket(ds, h - r2.lastFrames, h, h - r1.lastFrames);
    }
  }

  // ---------------------------------------------------------------------
  // A steady frame time.

  lemma {:induction false} SumConstant(ds: seq<real>, d: real, j: nat, k: nat)
    requires j <= k <= |ds|
    requires forall i :: 0 <= i < |ds| ==> ds[i] == d
    ensures Sum(ds, j, k) == (k - j) as real * d
    decreases k - j
  {
    if j < k {
      SumConstant(ds, d, j, k - 1);
    }
  }

  lemma MulNonNegative(a: real, b: real)
    requires a >= 0.0 && b >= 0.0
    ensures a * b >= 0.0
  {
  }

  /** The blended rate times `d`, written with `u = l*d` and `v = f*d`. */
  lemma ScaledRate(f: real, l: real, d: real)
    ensures (f + l * (1.0 - f * d)) * d == l * d + f * d * (1.0 - l * d)
  {
  }

  /** `fps * d` lies in `[1, 1 + d)`: for `d > 0` the rate is at least `1/d`
      and less than one frame above it. */
  predicate NearReciprocal(fps: real, d: real) {
    1.0 <= fps * d < 1.0 + d
  }

  /** The rate blends the open bucket with the share of the last bucket that
      lies within the past second. */
  predicate Blended(r: Counter) {
    r.fps == r.frames as real + r.lastFrames as real * (1.0 - r.frameTime)
  }

  /** With every frame taking the same time `d`, once a second has passed the
      reported rate is at least `1/d` and less than one frame above it. */
  lemma SteadyRateIsNearReciprocal(c: Counter, ds: seq<real>, d: real)
    requires d > 0.0 && |ds| as real * d >= 1.0
    requires forall i :: 0 <= i < |ds| ==> ds[i] == d
    ensures NearReciprocal(Replay(c, ds).fps, d)
  {
    assert NonNegative(ds);
    ReplayDescribesHistory(c, ds);
    ReplayBlends(c, ds);
    SteadyCounter(Replay(c, ds), ds, d);
  }

  lemma ReplayBlends(c: Counter, ds: seq<real>)
    requires |ds| > 0
    ensures Blended(Replay(c, ds))
  {
  }

  /** The same for any counter that describes a steady history and blends its
      buckets as `CalculateFps` does. */
  lemma SteadyCounter(r: Counter, ds: seq<real>, d: real)
    requires Describes(r, ds) && Blended(r)
    requires d > 0.0 && |ds| as real * d >= 1.0
    requires forall i :: 0 <= i < |ds| ==> ds[i] == d
    ensures NearReciprocal(r.fps, d)
  {
    SteadyBuckets(r, ds, d);
    var u, v := r.lastFrames as real * d, r.frames as real * d;
    ScaledRate(r.frames as real, r.lastFrames as real, d);
    MulNonNegative(v, 0.0 - (1.0 - u));
    MulNonNegative(1.0 - v, u - 1.0);
    Rearrange(u, v);
  }

  /** The scaled rate `u + v(1 - u)` around its two bounds. */
  lemma Rearrange(u: real, v: real)
    ensures u + v * (1.0 - u) == 1.0 + (1.0 - v) * (u - 1.0)
    ensures u + v * (1.0 - u) == u - v * (0.0 - (1.0 - u))
  {
  }

  /** Under a steady frame time the buckets' times are their counts times
      `d`: the last closed bucket reached a second only at its last frame and
      the open one has not reached it. */
  lemma SteadyBuckets(r: Counter, ds: seq<real>, d: real)
    requires Describes(r, ds)
    requires d > 0.0 && |ds| as real * d >= 1.0
    requires forall i :: 0 <= i < |ds| ==> ds[i] == d
    ensures r.frames < |ds|
    ensures r.frameTime == r.frames as real * d
    ensures r.frames as real * d < 1.0
    ensures r.lastFrames as real * d >= 1.0
    ensures r.lastFrames as real * d - d < 1.0
  {
    var f, l := r.frames, r.lastFrames;
    var h := |ds| - f;
    SteadySum(ds, d, h, |ds|, f);
    if f == |ds| {
      assert false;
    }
    ClosedSteadyBucket(ds, d, h - l, h, l);
  }

  lemma SteadySum(ds: seq<real>, d: real, j: nat, k: nat, n: nat)
    requires j <= k <= |ds| && k - j == n
    requires forall i :: 0 <= i < |ds| ==> ds[i] == d
    ensures Sum(ds, j, k) == n as real * d
  {
    SumConstant(ds, d, j, k);
  }

  /** A closed bucket of `n` frames of length `d`: `n*d` reaches a second and
      `(n-1)*d` does not. */
  lemma ClosedSteadyBucket(ds: seq<real>, d: real, j: nat, k: nat, n: nat)
    requires j < k <= |ds| && k - j == n && Closes(ds, j, k)
    requires forall i :: 0 <= i < |ds| ==> ds[i] == d
    ensures n as real * d >= 1.0
    ensures n as real * d - d < 1.0
  {
    SteadySum(ds, d, j, k, n);
    SteadySum(ds, d, j, k - 1, n - 1);
    assert (n - 1) as real == n as real - 1.0;
    Distributes(d, n as real, 1.0);
  }

  lemma Distributes(d: real, a: real, b: real)
    ensures (a - b) * d == a * d - b * d
  {
  }

  /** A frame that closes a bucket reports exactly that bucket's count. */
  lemma RolloverReportsClosedBucket(c: Counter, delta: real)
    requires c.frameTime + delta >= 1.0
    ensures CalculateFps(c, delta).fps == (c.frames + 1) as real
    ensures CurrentFps(CalculateFps(c, delta)) == c.frames + 1
  {
  }
}

=== FILE: Rendering.dfy ===
/** The error and clean-up protocol of `dx::RenderSystem`
    (DXLib/src/RenderSystem.cpp). Each of the five COM objects it owns is held
    or null; what Direct3D reports (the feature level it settled on, the
    format-support bits, the number of multisample quality levels) is passed
    in. Calls whose failures the library swallows (DEBUG_HR) are taken to
    succeed and hand back the object they create. */
module Rendering {
  import opened Errors
  import opened ComRelease
  import Windows

  /** The levels the device is asked for, best first; the device settles on
      one of them. */
  datatype FeatureLevel = Level11_0 | Level10_1 | Level10_0 | Level9_3

  datatype Format = R8G8B8A8Unorm | D24UnormS8Uint

  /** The back-buffer format every descriptor uses. */
  const DefaultFormat: Format := R8G8B8A8Unorm

  /** D3D11_FORMAT_SUPPORT_BUFFER. */
  const FormatSupportBuffer: bv32 := 0x1

  /** The sample count the library asks for. */
  const MsaaSampleCount: nat := 4

  /** What the device reports during `CreateDeviceAndContext`. */
  datatype DeviceReport = DeviceReport(featureLevel: FeatureLevel, formatSupport: bv32,
                                       msaaQualityLevels: nat)

  datatype SampleDesc = SampleDesc(count: nat, quality: nat)

  /** The values of the swapchain descriptor's enumerations that the library
      uses; it uses no other. */
  datatype ScanlineOrder = ScanlineOrderUnspecified
  datatype Scaling = ScalingUnspecified
  datatype BufferUsage = RenderTargetOutput
  datatype SwapEffect = SwapEffectDiscard

  datatype SwapChainDesc = SwapChainDesc(
    width: nat,
    height: nat,
    refreshNumerator: nat,
    refreshDenominator: nat,
    format: Format,
    scanlineOrder: ScanlineOrder,
    scaling: Scaling,
    sample: SampleDesc,
    usage: BufferUsage,
    bufferCount: nat,
    outputWindow: Windows.Handle,
    windowed: bool,
    swapEffect: SwapEffect,
    flags: bv32)

  /** The template every swapchain descriptor is copied from. */
  const DefaultSwapDesc: SwapChainDesc :=
    SwapChainDesc(640, 480, 60, 1, DefaultFormat, ScanlineOrderUnspecified, ScalingUnspecified,
                  SampleDesc(1, 0), RenderTargetOutput, 1, Windows.NullHandle, true,
                  SwapEffectDiscard, 0)

  datatype TextureDesc = TextureDesc(
    width: nat,
    height: nat,
    mipLevels: nat,
    arraySize: nat,
    format: Format,
    sample: SampleDesc,
    bindDepthStencil: bool)

  datatype Viewport = Viewport(topLeftX: real, topLeftY: real, width: real, height: real,
                               minDepth: real, maxDepth: real)

  datatype RenderSystem = RenderSystem(
    initOk: bool,
    device: ComPtr,
    context: ComPtr,
    swapChain: ComPtr,
    renderTargetView: ComPtr,
    depthStencilView: ComPtr)

  datatype Resource = DepthStencilView | SwapChain | RenderTargetView | Device | Context

  function Handle(rs: RenderSystem, k: Resource): ComPtr {
    match k
    case DepthStencilView => rs.depthStencilView
    case SwapChain => rs.swapChain
    case RenderTargetView => rs.renderTargetView
    case Device => rs.device
    case Context => rs.context
  }

  predicate Holds(rs: RenderSystem, k: Resource) {
    Handle(rs, k) == Held
  }

  predicate NoneHeld(rs: RenderSystem) {
    && rs.depthStencilView == Null && rs.swapChain == Null && rs.renderTargetView == Null
    && rs.device == Null && rs.context == Null
  }

  predicate AllHeld(rs: RenderSystem) {
    && rs.depthStencilView == Held && rs.swapChain == Held && rs.renderTargetView == Held
    && rs.device == Held && rs.context == Held
  }

  /** The constructor: not initialised, nothing held. */
  function NewRenderSystem(): (rs: RenderSystem)
    ensures !rs.initOk && NoneHeld(rs)
  {
    RenderSystem(false, Null, Null, Null, Null, Null)
  }

  /** Position of each resource in the order `FreeResources` releases them. */
  function ReleaseRank(k: Resource): nat {
    match k
    case DepthStencilView => 0
    case SwapChain => 1
    case RenderTargetView => 2
    case Device => 3
    case Context => 4
  }

  predicate InReleaseOrder(released: seq<Resource>) {
    forall i, j :: 0 <= i < j < |released| ==> ReleaseRank(released[i]) < ReleaseRank(released[j])
  }

  datatype Freed = Freed(rs: RenderSystem, released: seq<Resource>)

  function ReleasedIf(r: Released, k: Resource): seq<Resource> {
    if r.releaseCalled then [k] else []
  }

  /** The order `FreeResources` goes through the handles. */
  const ReleaseOrder: seq<Resource> :=
    [DepthStencilView, SwapChain, RenderTargetView, Device, Context]

  function WithHandle(rs: RenderSystem, k: Resource, p: ComPtr): (r: RenderSystem)
    ensures Handle(r, k) == p && r.initOk == rs.initOk
    ensures forall k' :: k' != k ==> Handle(r, k') == Handle(rs, k')
  {
    match k
    case DepthStencilView => rs.(depthStencilView := p)
    case SwapChain => rs.(swapChain := p)
    case RenderTargetView => rs.(renderTargetView := p)
    case Device => rs.(device := p)
    case Context => rs.(context := p)
  }

  /** `ReleaseCom` on each handle of `order` in turn: every handle named is
      left null, the others are untouched, and exactly the named handles that
      were held are released, in the order given. */
  function ReleaseAll(rs: RenderSystem, order: seq<Resource>): (r: Freed)
    ensures r.rs.initOk == rs.initOk
    ensures forall k :: k in order ==> Handle(r.rs, k) == Null
    ensures forall k :: k !in order ==> Handle(r.rs, k) == Handle(rs, k)
    ensures forall k :: k in r.released <==> k in order && Holds(rs, k)
    ensures InReleaseOrder(order) ==> InReleaseOrder(r.released)
    ensures |r.released| <= |order|
    decreases |order|
  {
    if |order| == 0 then Freed(rs, [])
    else
      var k := order[0];
      var one := ReleaseCom(Handle(rs, k));
      var rest := ReleaseAll(WithHandle(rs, k, one.ptr), order[1..]);
      ConsKeepsOrder(order, rest.released);
      Freed(rest.rs, (if one.releaseCalled then [k] else []) + rest.released)
  }

  /** Putting the head of an ordered list in front of anything drawn from its
      tail keeps the order. */
  lemma ConsKeepsOrder(order: seq<Resource>, tail: seq<Resource>)
    requires |order| > 0
    requires forall x :: x in tail ==> x in order[1..]
    requires InReleaseOrder(order[1..]) ==> InReleaseOrder(tail)
    ensures InReleaseOrder(order) ==> InReleaseOrder(tail) && InReleaseOrder([order[0]] + tail)
  {
    if InReleaseOrder(order) {
      assert InReleaseOrder(order[1..]) by {
        forall i, j | 0 <= i < j < |order[1..]|
          ensures ReleaseRank(order[1..][i]) < ReleaseRank(order[1..][j])
        {
          assert order[1..][i] == order[i + 1] && order[1..][j] == order[j + 1];
        }
      }
      var full := [order[0]] + tail;
      forall i, j | 0 <= i < j < |full| ensures ReleaseRank(full[i]) < ReleaseRank(full[j]) {
        if i == 0 {
          assert full[j] == tail[j - 1];
          assert full[j] in order[1..];
          var q :| 0 <= q < |order[1..]| && order[1..][q] == full[j];
          assert order[q + 1] == full[j];
        } else {
          assert full[i] == tail[i - 1] && full[j] == tail[j - 1];
        }
      }
    }
  }

  lemma ReleaseOrderCoversAll()
    ensures forall k: Resource :: k in ReleaseOrder
  {
    forall k: Resource ensures k in ReleaseOrder {
      assert ReleaseOrder[ReleaseRank(k)] == k;
    }
  }

  /** `FreeResources`: nothing is held afterwards; exactly the held resources
      were released, each once, depth-stencil view first and context last.
      The initialised flag is not touched. */
  function FreeResources(rs: RenderSystem): (r: Freed)
    ensures NoneHeld(r.rs) && r.rs.initOk == rs.initOk
    ensures forall k: Resource :: k in r.released <==> Holds(rs, k)
    ensures InReleaseOrder(r.released)
  {
    ReleaseInOrderFreesAll(rs);
    ReleaseAll(rs, ReleaseOrder)
  }

  lemma ReleaseInOrderFreesAll(rs: RenderSystem)
    ensures var r := ReleaseAll(rs, ReleaseOrder);
      && NoneHeld(r.rs) && r.rs.initOk == rs.initOk
      && (forall k: Resource :: k in r.released <==> Holds(rs, k))
      && InReleaseOrder(r.released)
  {
    var r := ReleaseAll(rs, ReleaseOrder);
    ReleaseOrderCoversAll();
    ReleaseOrderIsSorted();
    assert Handle(r.rs, DepthStencilView) == Null && Handle(r.rs, SwapChain) == Null
      && Handle(r.rs, RenderTargetView) == Null && Handle(r.rs, Device) == Null
      && Handle(r.rs, Context) == Null;
  }

  /** Freeing twice releases nothing the second time. */
  lemma FreeResourcesIdempotent(rs: RenderSystem)
    ensures FreeResources(FreeResources(rs).rs).released == []
    ensures FreeResources(FreeResources(rs).rs).rs == FreeResources(rs).rs
  {
  }

  datatype DeviceStep = DeviceStep(err: Error, rs: RenderSystem, msaaQuality: nat)

  predicate SupportsBuffer(dev: DeviceReport) {
    dev.formatSupport & FormatSupportBuffer != 0
  }

  /** Whether the checks of `CreateDeviceAndContext` let `dev` through. */
  predicate DeviceAccepted(dev: DeviceReport) {
    dev.featureLevel == Level11_0 && SupportsBuffer(dev)
  }

  /** `CreateDeviceAndContext`: asserts there is no device yet, obtains device
      and context, rejects any level but 11_0 before looking at the format,
      then rejects a format without buffer support. On success it asserts
      that at least one multisample quality level exists. */
  function CreateDeviceAndContext(rs: RenderSystem, dev: DeviceReport): (r: DeviceStep)
    requires rs.device == Null
    requires DeviceAccepted(dev) ==> dev.msaaQualityLevels > 0
    ensures dev.featureLevel != Level11_0 ==> r.err == RenderFeatureLevelTooLow
    ensures dev.featureLevel == Level11_0 ==>
      (r.err == RenderFormatNotSupported <==> !SupportsBuffer(dev))
    ensures r.err == OK <==> DeviceAccepted(dev)
    ensures r.err == OK ==> r.msaaQuality == dev.msaaQualityLevels && r.msaaQuality > 0
    ensures r.rs == rs.(device := Held, context := Held)
  {
    var created := rs.(device := Held, context := Held);
    if dev.featureLevel != Level11_0 then DeviceStep(RenderFeatureLevelTooLow, created, 0)
    else if !SupportsBuffer(dev) then DeviceStep(RenderFormatNotSupported, created, 0)
    else DeviceStep(OK, created, dev.msaaQualityLevels)
  }

  /** The swapchain descriptor of `CreateSwapChain`: the default template
      with 4 samples at the best quality, bound to the window's handle and
      sized to its client area. */
  function SwapChainFor(window: Windows.Window, msaaQuality: nat): (d: SwapChainDesc)
    requires window.hwnd != Windows.NullHandle
    requires msaaQuality > 0
    ensures d.sample == SampleDesc(MsaaSampleCount, msaaQuality - 1)
    ensures d.width == Windows.GetWidth(window) && d.height == Windows.GetHeight(window)
    ensures d.outputWindow == Windows.GetHandle(window)
    ensures d.(width := 640, height := 480, sample := SampleDesc(1, 0),
               outputWindow := Windows.NullHandle) == DefaultSwapDesc
  {
    DefaultSwapDesc.(sample := SampleDesc(4, msaaQuality - 1),
                     outputWindow := Windows.GetHandle(window),
                     width := Windows.GetWidth(window),
                     height := Windows.GetHeight(window))
  }

  /** The depth-stencil texture of `CreateDepthStencilBuffer`: the swapchain's
      size and sampling, one mip level, one slice, a 24/8 depth-stencil
      format. */
  function DepthBufferFor(swap: SwapChainDesc): (t: TextureDesc)
    ensures t.width == swap.width && t.height == swap.height && t.sample == swap.sample
    ensures t.mipLevels == 1 && t.arraySize == 1
    ensures t.format == D24UnormS8Uint && t.bindDepthStencil
  {
    TextureDesc(swap.width, swap.height, 1, 1, D24UnormS8Uint, swap.sample, true)
  }

  /** The full-window viewport set at the end of `Initialize`. */
  function ViewportFor(window: Windows.Window): (v: Viewport)
    ensures v.topLeftX == 0.0 && v.topLeftY == 0.0
    ensures v.width == Windows.GetWidth(window) as real
    ensures v.height == Windows.GetHeight(window) as real
    ensures v.minDepth == 0.0 && v.maxDepth == 1.0
  {
    Viewport(0.0, 0.0, window.width as real, window.height as real, 0.0, 1.0)
  }

  /** The configuration a successful `Initialize` leaves bound. */
  datatype Setup = NoSetup | Setup(featureLevel: FeatureLevel, swap: SwapChainDesc,
                                   depth: TextureDesc, viewport: Viewport)

  datatype RenderInit = RenderInit(err: Error, rs: RenderSystem, setup: Setup,
                                   released: seq<Resource>)

  /** `Initialize`: create device and context, then the swapchain, the
      render-target view over its back buffer and the depth-stencil view. Any
      failing step is followed by `FreeResources` and its error is returned
      as it is; the initialised flag is raised only at the very end. */
  function Initialize(rs: RenderSystem, window: Windows.Window, dev: DeviceReport): (r: RenderInit)
    requires rs.device == Null
    requires DeviceAccepted(dev) ==> dev.msaaQualityLevels > 0
    requires DeviceAccepted(dev) ==> window.hwnd != Windows.NullHandle
    ensures r.err == CreateDeviceAndContext(rs, dev).err
    ensures r.err != OK ==> !r.rs.initOk || rs.initOk
    ensures r.err != OK ==> NoneHeld(r.rs) && r.setup == NoSetup
    ensures r.err == OK ==> r.rs.initOk && AllHeld(r.rs) && r.released == []
    ensures r.err == OK ==>
      && r.setup.Setup?
      && r.setup.swap == SwapChainFor(window, dev.msaaQualityLevels)
      && r.setup.depth == DepthBufferFor(r.setup.swap)
      && r.setup.viewport == ViewportFor(window)
  {
    var step := CreateDeviceAndContext(rs, dev);
    if step.err != OK then
      var freed := FreeResources(step.rs);
      RenderInit(step.err, freed.rs, NoSetup, freed.released)
    else
      var swap := SwapChainFor(window, step.msaaQuality);
      // The swapchain, then the render-target view over its back buffer,
      // then the depth-stencil view; none of these steps reports an error.
      var withViews := step.rs.(swapChain := Held, renderTargetView := Held,
                                depthStencilView := Held);
      RenderInit(OK, withViews.(initOk := true),
                 Setup(dev.featureLevel, swap, DepthBufferFor(swap), ViewportFor(window)), [])
  }

  /** What a failed `Initialize` releases on the way out: exactly the device
      and the context it had obtained, device first. */
  lemma FailedInitializeReleasesDeviceAndContext(rs: RenderSystem, window: Windows.Window,
                                                 dev: DeviceReport)
    requires NoneHeld(rs)
    requires !DeviceAccepted(dev)
    ensures Initialize(rs, window, dev).err != OK
    ensures Initialize(rs, window, dev).released == [Device, Context]
  {
    var held := CreateDeviceAndContext(rs, dev).rs;
    var freed := FreeResources(held);
    assert Initialize(rs, window, dev).released == freed.released;
    HoldsOnlyDeviceAndContext(held);
    assert forall k: Resource :: k in freed.released <==> k in [Device, Context];
    DeviceThenContextIsSorted();
    ReleasedListIsExact(freed.released, [Device, Context]);
  }

  /** Releasing a fully initialised instance releases all five resources, in
      the fixed order. */
  lemma FreeingAllReleasesInOrder(rs: RenderSystem)
    requires AllHeld(rs)
    ensures FreeResources(rs).released == ReleaseOrder
  {
    var released := FreeResources(rs).released;
    ReleaseOrderCoversAll();
    HoldsEach(rs);
    ReleaseOrderIsSorted();
    assert forall k: Resource :: k in released <==> k in ReleaseOrder;
    ReleasedListIsExact(released, ReleaseOrder);
  }

  lemma ReleaseOrderIsSorted()
    ensures InReleaseOrder(ReleaseOrder)
  {
    forall i, j | 0 <= i < j < |ReleaseOrder|
      ensures ReleaseRank(ReleaseOrder[i]) < ReleaseRank(ReleaseOrder[j])
    {
      assert ReleaseRank(ReleaseOrder[i]) == i && ReleaseRank(ReleaseOrder[j]) == j;
    }
  }

  lemma DeviceThenContextIsSorted()
    ensures InReleaseOrder([Device, Context])
  {
  }

  lemma HoldsEach(rs: RenderSystem)
    requires AllHeld(rs)
    ensures forall k: Resource :: Holds(rs, k)
  {
    forall k: Resource ensures Holds(rs, k) {
      match k
      case Device =>
      case Context =>
      case DepthStencilView =>
      case SwapChain =>
      case RenderTargetView =>
    }
  }

  lemma HoldsOnlyDeviceAndContext(rs: RenderSystem)
    requires rs.depthStencilView == Null && rs.swapChain == Null && rs.renderTargetView == Null
    requires rs.device == Held && rs.context == Held
    ensures forall k: Resource :: Holds(rs, k) <==> k in [Device, Context]
  {
    forall k: Resource ensures Holds(rs, k) <==> k in [Device, Context] {
      match k
      case Device =>
      case Context =>
      case DepthStencilView =>
      case SwapChain =>
      case RenderTargetView =>
    }
  }

  /** The first element of a list in release order has the lowest rank. */
  lemma FirstIsLeast(s: seq<Resource>, k: Resource)
    requires InReleaseOrder(s) && k in s
    ensures ReleaseRank(s[0]) <= ReleaseRank(k)
  {
    var i :| 0 <= i < |s| && s[i] == k;
    if i > 0 {
      assert ReleaseRank(s[0]) < ReleaseRank(s[i]);
    }
  }

  lemma ReleaseRankInjective(k1: Resource, k2: Resource)
    ensures ReleaseRank(k1) == ReleaseRank(k2) ==> k1 == k2
  {
  }

  /** A list with the same members as another has the same length zero. */
  lemma SameMembersBothEmpty(a: seq<Resource>, b: seq<Resource>)
    requires forall k: Resource :: k in a <==> k in b
    ensures |a| == 0 <==> |b| == 0
  {
    if |a| > 0 { assert a[0] in b; }
    if |b| > 0 { assert b[0] in a; }
  }

  /** Two lists in release order that contain the same resources are equal. */
  lemma {:induction false} ReleasedListIsExact(a: seq<Resource>, b: seq<Resource>)
    requires InReleaseOrder(a) && InReleaseOrder(b)
    requires forall k: Resource :: k in a <==> k in b
    ensures a == b
    decreases |a| + |b|
  {
    SameMembersBothEmpty(a, b);
    if |a| > 0 {
      // The first element of each is the lowest-ranked member of both.
      assert a[0] in b;
      assert b[0] in a;
      FirstIsLeast(b, a[0]);
      FirstIsLeast(a, b[0]);
      ReleaseRankInjective(a[0], b[0]);
      forall k: Resource ensures k in a[1..] <==> k in b[1..] {
        if k in a[1..] {
          var p :| 0 <= p < |a[1..]| && a[1..][p] == k;
          assert a[p + 1] == k;
          assert k != a[0];
          assert k in b;
          var q :| 0 <= q < |b| && b[q] == k;
          assert q != 0;
          assert b[1..][q - 1] == k;
        }
        if k in b[1..] {
          var q :| 0 <= q < |b[1..]| && b[1..][q] == k;
          assert b[q + 1] == k;
          assert k != b[0];
          assert k in a;
          var p :| 0 <= p < |a| && a[p] == k;
          assert p != 0;
          assert a[1..][p - 1] == k;
        }
      }
      ReleasedListIsExact(a[1..], b[1..]);
    }
  }

  datatype Destruction = Destruction(rs: RenderSystem, clearedState: bool, released: seq<Resource>)

  /** The destructor: only an initialised instance clears the context's state
      and frees its resources; any other instance is left alone. */
  function Destruct(rs: RenderSystem): (r: Destruction)
    ensures !rs.initOk ==> r == Destruction(rs, false, [])
    ensures rs.initOk ==> r.clearedState == rs.context.Held? && NoneHeld(r.rs)
    ensures rs.initOk ==> forall k: Resource :: k in r.released <==> Holds(rs, k)
  {
    if !rs.initOk then Destruction(rs, false, [])
    else
      var freed := FreeResources(rs);
      Destruction(freed.rs, rs.context.Held?, freed.released)
  }

  /** No leak and no double release over a render system's life: whether
      `Initialize` fails or succeeds, after the destructor nothing is held, and
      the resources released along the way are exactly those `Initialize`
      obtained, each released once. */
  lemma LifetimeReleasesEachOnce(window: Windows.Window, dev: DeviceReport)
    requires DeviceAccepted(dev) ==> dev.msaaQualityLevels > 0
    requires DeviceAccepted(dev) ==> window.hwnd != Windows.NullHandle
    ensures var init := Initialize(NewRenderSystem(), window, dev);
      var end := Destruct(init.rs);
      && NoneHeld(end.rs)
      && init.released + end.released == (if init.err == OK then ReleaseOrder else [Device, Context])
  {
    if DeviceAccepted(dev) {
      SuccessfulLifetime(window, dev);
    } else {
      FailedLifetime(window, dev);
    }
  }

  lemma SuccessfulLifetime(window: Windows.Window, dev: DeviceReport)
    requires DeviceAccepted(dev) && dev.msaaQualityLevels > 0
    requires window.hwnd != Windows.NullHandle
    ensures var init := Initialize(NewRenderSystem(), window, dev);
      && init.err == OK
      && NoneHeld(Destruct(init.rs).rs)
      && init.released + Destruct(init.rs).released == ReleaseOrder
  {
    var init := Initialize(NewRenderSystem(), window, dev);
    var end := Destruct(init.rs);
    assert init.released == [];
    assert end.released == FreeResources(init.rs).released;
    FreeingAllReleasesInOrder(init.rs);
  }

  lemma FailedLifetime(window: Windows.Window, dev: DeviceReport)
    requires !DeviceAccepted(dev)
    ensures var init := Initialize(NewRenderSystem(), window, dev);
      && init.err != OK
      && NoneHeld(Destruct(init.rs).rs)
      && init.released + Destruct(init.rs).released == [Device, Context]
  {
    var rs := NewRenderSystem();
    var init := Initialize(rs, window, dev);
    assert !init.rs.initOk;
    assert Destruct(init.rs).released == [];
    FailedInitializeReleasesDeviceAndContext(rs, window, dev);
  }
}

=== FILE: SimpleMath.dfy ===
/** The inline scalar and geometry helpers of DXLib/include/SimpleMath.h,
    over `real` instead of `float`. Only bodies written in that header are
    modelled; the operators and matrix methods it declares live elsewhere. */
module SimpleMath {

  /** `math::Pi`, the float literal 3.14159265359f, taken as an exact real. */
  const Pi: real := 3.14159265359
  const TwoPi: real := Pi * 2.0

  /** Clips an angle that leaves [-2 Pi, 2 Pi] to the opposite bound: anything
      above 2 Pi becomes -2 Pi, anything below -2 Pi becomes 2 Pi. */
  function WrapAngle(f: real): (r: real)
    ensures -TwoPi <= r <= TwoPi
    ensures -TwoPi <= f <= TwoPi ==> r == f
    ensures f > TwoPi ==> r == -TwoPi
    ensures f < -TwoPi ==> r == TwoPi
  {
    var g := if f > Pi * 2.0 then -Pi * 2.0 else f;
    if g < -Pi * 2.0 then Pi * 2.0 else g
  }

  /** `WrapAngle` is not a reduction modulo 2 Pi: just above 2 Pi, the result
      is not the input shifted by a whole turn. */
  lemma WrapAngleIsNotModulo()
    ensures WrapAngle(TwoPi + 1.0) != 1.0
    ensures WrapAngle(TwoPi + 1.0) - (TwoPi + 1.0) != -TwoPi
  {
  }

  function Lerp(x: real, y: real, a: real): real {
    x + (y - x) * a
  }

  /** Lerp hits both ends, and for a weight in [0, 1] stays between them. */
  lemma LerpEnds(x: real, y: real, a: real)
    ensures Lerp(x, y, 0.0) == x && Lerp(x, y, 1.0) == y
    ensures 0.0 <= a <= 1.0 ==> Between(Lerp(x, y, a), x, y)
  {
    if 0.0 <= a <= 1.0 {
      if x <= y {
        LerpRising(x, y, a);
      } else {
        LerpFalling(x, y, a);
      }
    }
  }

  lemma LerpRising(x: real, y: real, a: real)
    requires 0.0 <= a <= 1.0 && x <= y
    ensures x <= Lerp(x, y, a) <= y
  {
    var d := y - x;
    ScaleWithinUnit(d, a);
    assert 0.0 <= d * a <= d;
    assert Lerp(x, y, a) == x + d * a;
  }

  lemma LerpFalling(x: real, y: real, a: real)
    requires 0.0 <= a <= 1.0 && y <= x
    ensures y <= Lerp(x, y, a) <= x
  {
    ScaleNonPositive(y - x, a);
  }

  /** `v` lies between the two ends, in whichever order they come. */
  predicate Between(v: real, e1: real, e2: real) {
    (e1 <= v <= e2) || (e2 <= v <= e1)
  }

  /** Scaling a length by a weight in [0, 1] stays between 0 and the length. */
  lemma ScaleWithinUnit(p: real, a: real)
    requires p >= 0.0 && 0.0 <= a <= 1.0
    ensures 0.0 <= p * a <= p
  {
    assert p - p * a == p * (1.0 - a);
  }

  lemma ScaleNonPositive(p: real, a: real)
    requires p <= 0.0 && 0.0 <= a <= 1.0
    ensures p <= p * a <= 0.0
  {
    assert p * a - p == p * (a - 1.0);
  }

  /** Raise to `min`, then lower to `max`. When the bounds are crossed the
      second step wins and the result is `max`. */
  function Clamp(x: real, min: real, max: real): (r: real)
    ensures r <= max
    ensures min <= max ==> min <= r
    ensures min <= x <= max ==> r == x
    ensures x < min && min <= max ==> r == min
    ensures x > max ==> r == max
  {
    var lifted := if x < min then min else x;
    if lifted > max then max else lifted
  }

  /** Clamping twice is clamping once. */
  lemma ClampIdempotent(x: real, min: real, max: real)
    ensures Clamp(Clamp(x, min, max), min, max) == Clamp(x, min, max)
  {
  }

  function ToRadians(degrees: real): real {
    degrees * (Pi / 180.0)
  }

  function ToDegrees(radians: real): real {
    radians * (180.0 / Pi)
  }

  /** The two conversions are inverse to each other. */
  lemma DegreesRadiansRoundTrip(d: real, r: real)
    ensures ToDegrees(ToRadians(d)) == d
    ensures ToRadians(ToDegrees(r)) == r
  {
    assert (Pi / 180.0) * (180.0 / Pi) == 1.0;
    calc {
      ToDegrees(ToRadians(d));
      d * (Pi / 180.0) * (180.0 / Pi);
      d * ((Pi / 180.0) * (180.0 / Pi));
      d;
    }
    calc {
      ToRadians(ToDegrees(r));
      r * (180.0 / Pi) * (Pi / 180.0);
      r * ((Pi / 180.0) * (180.0 / Pi));
      r;
    }
  }

  // ---------------------------------------------------------------------
  // Vectors.

  datatype Vector2f = Vector2f(x: real, y: real)
  datatype Vector3f = Vector3f(x: real, y: real, z: real)
  datatype Vector4f = Vector4f(x: real, y: real, z: real, w: real)

  const Zero4: Vector4f := Vector4f(0.0, 0.0, 0.0, 0.0)

  function Dot2(a: Vector2f, b: Vector2f): real {
    a.x * b.x + a.y * b.y
  }

  function Dot3(a: Vector3f, b: Vector3f): real {
    a.x * b.x + a.y * b.y + a.z * b.z
  }

  function Dot4(a: Vector4f, b: Vector4f): real {
    a.x * b.x + a.y * b.y + a.z * b.z + a.w * b.w
  }

  lemma DotCommutes(a2: Vector2f, b2: Vector2f, a3: Vector3f, b3: Vector3f,
                    a4: Vector4f, b4: Vector4f)
    ensures Dot2(a2, b2) == Dot2(b2, a2)
    ensures Dot3(a3, b3) == Dot3(b3, a3)
    ensures Dot4(a4, b4) == Dot4(b4, a4)
  {
  }

  function Cross(a: Vector3f, b: Vector3f): Vector3f {
    Vector3f(a.y * b.z - a.z * b.y,
             a.z * b.x - a.x * b.z,
             a.x * b.y - a.y * b.x)
  }

  function Negate3(a: Vector3f): Vector3f {
    Vector3f(-a.x, -a.y, -a.z)
  }

  /** The cross product is anti-commutative and orthogonal to both of its
      operands. */
  lemma CrossProperties(a: Vector3f, b: Vector3f)
    ensures Cross(b, a) == Negate3(Cross(a, b))
    ensures Dot3(a, Cross(a, b)) == 0.0
    ensures Dot3(b, Cross(a, b)) == 0.0
  {
    var c := Cross(a, b);
    calc {
      Dot3(a, c);
      a.x * (a.y * b.z) - a.x * (a.z * b.y)
        + a.y * (a.z * b.x) - a.y * (a.x * b.z)
        + a.z * (a.x * b.y) - a.z * (a.y * b.x);
      0.0;
    }
    calc {
      Dot3(b, c);
      b.x * (a.y * b.z) - b.x * (a.z * b.y)
        + b.y * (a.z * b.x) - b.y * (a.x * b.z)
        + b.z * (a.x * b.y) - b.z * (a.y * b.x);
      0.0;
    }
  }

  function XYZ(v: Vector4f): Vector3f {
    Vector3f(v.x, v.y, v.z)
  }

  /** `Vector4f::Cross` ignores `w`: it is the 3D cross product of the xyz
      parts. */
  function Cross4(a: Vector4f, b: Vector4f): (r: Vector3f)
    ensures r == Cross(XYZ(a), XYZ(b))
    ensures Dot3(XYZ(a), r) == 0.0
  {
    CrossProperties(XYZ(a), XYZ(b));
    Vector3f(a.y * b.z - a.z * b.y,
             a.z * b.x - a.x * b.z,
             a.x * b.y - a.y * b.x)
  }

  // ---------------------------------------------------------------------
  // Matrix.

  /** A 4x4 matrix stored row-major, as `float m[4][4]`. */
  datatype Mat4x4 = Mat4x4(m: seq<seq<real>>)

  predicate WellShaped(a: Mat4x4) {
    |a.m| == 4 && forall i :: 0 <= i < 4 ==> |a.m[i]| == 4
  }

  /** The default-constructed matrix: ones on the diagonal, zeros elsewhere. */
  function Identity(): (a: Mat4x4)
    ensures WellShaped(a)
    ensures forall i, j :: 0 <= i < 4 && 0 <= j < 4 ==>
      a.m[i][j] == if i == j then 1.0 else 0.0
  {
    Mat4x4([[1.0, 0.0, 0.0, 0.0],
            [0.0, 1.0, 0.0, 0.0],
            [0.0, 0.0, 1.0, 0.0],
            [0.0, 0.0, 0.0, 1.0]])
  }

  // ---------------------------------------------------------------------
  // Rectangles.

  datatype RectangleF = RectangleF(x: real, y: real, w: real, h: real)

  /** The corner constructor: origin at `min`, extent up to `max`. */
  function FromCorners(min: Vector2f, max: Vector2f): (r: RectangleF)
    ensures r.x == min.x && r.y == min.y
    ensures r.x + r.w == max.x && r.y + r.h == max.y
  {
    RectangleF(min.x, min.y, max.x - min.x, max.y - min.y)
  }

  /** Fails as soon as one rectangle lies wholly past the far edge of the
      other on some axis; touching edges do not count as separated. */
  function Intersects(a: RectangleF, b: RectangleF): bool {
    if a.x > b.x + b.w then false
    else if a.y > b.y + b.h then false
    else if b.x > a.x + a.w then false
    else if b.y > a.y + a.h then false
    else true
  }

  /** The closed region a rectangle of non-negative size covers. */
  predicate Contains(r: RectangleF, px: real, py: real) {
    r.x <= px <= r.x + r.w && r.y <= py <= r.y + r.h
  }

  lemma IntersectsSymmetric(a: RectangleF, b: RectangleF)
    ensures Intersects(a, b) == Intersects(b, a)
  {
  }

  /** For rectangles of non-negative size, `Intersects` holds exactly when the
      two closed regions share a point; rectangles that only share an edge or
      a corner intersect. */
  lemma IntersectsIffSharedPoint(a: RectangleF, b: RectangleF)
    requires a.w >= 0.0 && a.h >= 0.0 && b.w >= 0.0 && b.h >= 0.0
    ensures Intersects(a, b) <==> exists px, py :: Contains(a, px, py) && Contains(b, px, py)
  {
    if Intersects(a, b) {
      var px := if a.x >= b.x then a.x else b.x;
      var py := if a.y >= b.y then a.y else b.y;
      assert Contains(a, px, py) && Contains(b, px, py);
    }
  }

  lemma TouchingEdgesIntersect(x: real, y: real, w: real, h: real, w2: real)
    requires w >= 0.0 && h >= 0.0 && w2 >= 0.0
    ensures Intersects(RectangleF(x, y, w, h), RectangleF(x + w, y, w2, h))
  {
  }
}

=== FILE: Timing.dfy ===
/** The `dx::Timer` of DXLib/src/Timer.cpp and DXLib/include/Timer.h as an
    immutable record with pure transitions. The OS time sources
    (QueryPerformanceFrequency/Counter and timeGetTime) are replaced by a
    `TimeSource` and a `reading` passed to each transition; the source's
    `assert`s become `requires`. */
module Timing {

  /** What `Start` finds: a high-resolution counter with its (positive)
      counts-per-second, or only the millisecond clock. */
  datatype TimeSource = PerformanceCounter(countsPerSecond: nat) | MillisecondClock

  predicate ValidSource(src: TimeSource) {
    src.PerformanceCounter? ==> src.countsPerSecond > 0
  }

  datatype Timer = Timer(
    startTick: real,
    lastTick: real,
    thisTick: real,
    // Ticks are multiplied by this to give seconds.
    frequency: real,
    deltaSeconds: real,
    totalSeconds: real,
    isRunning: bool,
    isPaused: bool,
    isHighPrecision: bool)

  /** The constructor. It never initialises `_totalSeconds`; whatever value
      that field happens to hold is the parameter `indeterminateTotal`. */
  function NewTimer(indeterminateTotal: real): (t: Timer)
    ensures !t.isRunning && !t.isPaused && !t.isHighPrecision
    ensures t.deltaSeconds == 0.0 && t.frequency == 0.0
    ensures t.startTick == t.lastTick == t.thisTick == 0.0
  {
    Timer(0.0, 0.0, 0.0, 0.0, 0.0, indeterminateTotal, false, false, false)
  }

  /** Seconds per tick of the chosen source. */
  function SecondsPerTick(src: TimeSource): (f: real)
    requires ValidSource(src)
    ensures f > 0.0
    ensures src.PerformanceCounter? ==> f * (src.countsPerSecond as real) == 1.0
    ensures src.MillisecondClock? ==> f * 1000.0 == 1.0
  {
    match src
    case PerformanceCounter(n) => 1.0 / (n as real)
    case MillisecondClock => 1.0 / 1000.0
  }

  /** The telescoping invariant: the accumulated total is the whole distance
      from the start reading to the latest reading, converted to seconds. */
  predicate Telescopes(t: Timer) {
    t.totalSeconds == (t.thisTick - t.startTick) * t.frequency
  }

  /** `Start` samples `reading` from the source, resets both accumulators and
      marks the timer running. It leaves the paused flag alone, and the
      high-precision flag is only ever raised, never cleared. */
  function Start(t: Timer, src: TimeSource, reading: real): (r: Timer)
    requires ValidSource(src)
    ensures r.startTick == r.lastTick == r.thisTick == reading
    ensures r.deltaSeconds == 0.0 && r.totalSeconds == 0.0
    ensures r.frequency == SecondsPerTick(src) && r.frequency > 0.0
    ensures r.isRunning && r.isPaused == t.isPaused
    ensures r.isHighPrecision == (t.isHighPrecision || src.PerformanceCounter?)
    ensures Telescopes(r)
  {
    Timer(reading, reading, reading, SecondsPerTick(src), 0.0, 0.0,
          true, t.isPaused, t.isHighPrecision || src.PerformanceCounter?)
  }

  /** `Stop` clears only the running flag: delta and total are kept. */
  function Stop(t: Timer): (r: Timer)
    ensures !r.isRunning
    ensures r.(isRunning := t.isRunning) == t
    ensures Telescopes(t) ==> Telescopes(r)
  {
    t.(isRunning := false)
  }

  function Pause(t: Timer): (r: Timer)
    requires t.isRunning && !t.isPaused
    ensures r.isPaused && r.isRunning
    ensures r.(isPaused := false) == t
  {
    t.(isPaused := true)
  }

  /** `Resume` exactly as the source has it: it checks its precondition and
      changes nothing, so the timer stays paused. */
  function ResumeAsWritten(t: Timer): (r: Timer)
    requires t.isRunning && t.isPaused
    ensures r.isPaused
    ensures r == t
  {
    t
  }

  /** `Resume` as evidently intended: clear the paused flag and take `now` as
      the latest reading, so the next delta does not count the paused
      interval. The source never reads `_startTick` after setting it; it is
      shifted by the same interval so that the total keeps telescoping. */
  function Resume(t: Timer, now: real): (r: Timer)
    requires t.isRunning && t.isPaused
    ensures r.isRunning && !r.isPaused
    ensures r.thisTick == now
    ensures r.totalSeconds == t.totalSeconds && r.deltaSeconds == t.deltaSeconds
    ensures Telescopes(t) ==> Telescopes(r)
  {
    var shifted := t.startTick + (now - t.thisTick);
    assert (now - shifted) * t.frequency == (t.thisTick - t.startTick) * t.frequency;
    t.(isPaused := false, thisTick := now, startTick := shifted)
  }

  /** `Tick` with the current clock `reading`. A paused timer does not advance
      at all; otherwise the previous reading becomes `lastTick` and the delta
      between the two readings is added to the total. */
  function Tick(t: Timer, reading: real): (r: Timer)
    requires t.isRunning
    ensures t.isPaused ==> r == t
    ensures !t.isPaused ==> r.lastTick == t.thisTick && r.thisTick == reading
    ensures !t.isPaused ==> r.deltaSeconds == (reading - t.thisTick) * t.frequency
    ensures !t.isPaused ==> r.totalSeconds == t.totalSeconds + r.deltaSeconds
    ensures r.startTick == t.startTick && r.frequency == t.frequency
    ensures r.isRunning && r.isPaused == t.isPaused && r.isHighPrecision == t.isHighPrecision
  {
    if t.isPaused then t
    else
      var delta := (reading - t.thisTick) * t.frequency;
      t.(lastTick := t.thisTick, thisTick := reading,
         deltaSeconds := delta, totalSeconds := t.totalSeconds + delta)
  }

  /** A tick keeps the telescoping invariant. */
  lemma TickTelescopes(t: Timer, reading: real)
    requires t.isRunning && Telescopes(t)
    ensures Telescopes(Tick(t, reading))
  {
    if !t.isPaused {
      var r := Tick(t, reading);
      calc {
        r.totalSeconds;
        (t.thisTick - t.startTick) * t.frequency + (reading - t.thisTick) * t.frequency;
        (reading - t.startTick) * t.frequency;
      }
    }
  }

  // Unit getters: the same two stored values in other units.
  function ToMillis(x: real): real { x * 1000.0 }
  function ToMinutes(x: real): real { x / 60.0 }
  function ToHours(x: real): real { x / 3600.0 }

  function GetDeltaSeconds(t: Timer): real { t.deltaSeconds }
  function GetDeltaMillis(t: Timer): real { ToMillis(t.deltaSeconds) }
  function GetDeltaMinutes(t: Timer): real { ToMinutes(t.deltaSeconds) }
  function GetDeltaHours(t: Timer): real { ToHours(t.deltaSeconds) }
  function GetTotalSeconds(t: Timer): real { t.totalSeconds }
  function GetTotalMillis(t: Timer): real { ToMillis(t.totalSeconds) }
  function GetTotalMinutes(t: Timer): real { ToMinutes(t.totalSeconds) }
  function GetTotalHours(t: Timer): real { ToHours(t.totalSeconds) }

  /** The getters of one value agree with each other: a thousandth of the
      milliseconds, sixty times the minutes and 3600 times the hours are all
      the seconds, for the delta and for the total alike. */
  lemma UnitsAgree(t: Timer)
    ensures GetDeltaMillis(t) / 1000.0 == GetDeltaSeconds(t)
    ensures GetDeltaMinutes(t) * 60.0 == GetDeltaSeconds(t)
    ensures GetDeltaHours(t) * 3600.0 == GetDeltaSeconds(t)
    ensures GetDeltaHours(t) * 60.0 == GetDeltaMinutes(t)
    ensures GetTotalMillis(t) / 1000.0 == GetTotalSeconds(t)
    ensures GetTotalMinutes(t) * 60.0 == GetTotalSeconds(t)
    ensures GetTotalHours(t) * 3600.0 == GetTotalSeconds(t)
    ensures GetTotalHours(t) * 60.0 == GetTotalMinutes(t)
  {
  }

  /** The counterexample behind the `Resume` finding: after Pause and the
      as-written Resume, a Tick at any later reading changes nothing, and no
      sequence of operations that follows ever lowers the paused flag or
      moves the total. */
  lemma PauseIsPermanentAsWritten(t: Timer, later: real, ops: seq<TimerOp>)
    requires t.isRunning && !t.isPaused
    ensures var r := ResumeAsWritten(Pause(t));
      r.isPaused && Tick(r, later) == r
    ensures ValidTrace(Pause(t), ops, false) ==>
      && Replay(Pause(t), ops, false).isPaused
      && Replay(Pause(t), ops, false).totalSeconds == (if NoStart(ops) then t.totalSeconds else 0.0)
  {
    if ValidTrace(Pause(t), ops, false) {
      PausedStaysPaused(Pause(t), ops);
    }
  }

  /** With the corrected Resume the next Tick advances again, by exactly the
      time since `now`: the paused interval is not counted. */
  lemma ResumeThenTick(t: Timer, now: real, later: real)
    requires t.isRunning && !t.isPaused && Telescopes(t)
    ensures var r := Tick(Resume(Pause(t), now), later);
      && !r.isPaused
      && r.deltaSeconds == (later - now) * t.frequency
      && r.totalSeconds == t.totalSeconds + (later - now) * t.frequency
      && Telescopes(r)
  {
    TickTelescopes(Resume(Pause(t), now), later);
  }

  // ---------------------------------------------------------------------
  // Sequences of operations.

  datatype TimerOp =
    | StartOp(src: TimeSource, reading: real)
    | StopOp
    | PauseOp
    | ResumeOp(now: real)
    | TickOp(reading: real)

  /** Whether `op` passes the source's assertions in state `t`. */
  predicate Enabled(t: Timer, op: TimerOp) {
    match op
    case StartOp(src, _) => ValidSource(src)
    case StopOp => true
    case PauseOp => t.isRunning && !t.isPaused
    case ResumeOp(_) => t.isRunning && t.isPaused
    case TickOp(_) => t.isRunning
  }

  /** One operation. `corrected` picks the `Resume` that is applied: the
      corrected one, or the one the program has, which changes nothing. */
  function Apply(t: Timer, op: TimerOp, corrected: bool): Timer
    requires Enabled(t, op)
  {
    match op
    case StartOp(src, reading) => Start(t, src, reading)
    case StopOp => Stop(t)
    case PauseOp => Pause(t)
    case ResumeOp(now) => if corrected then Resume(t, now) else ResumeAsWritten(t)
    case TickOp(reading) => Tick(t, reading)
  }

  predicate ValidTrace(t: Timer, ops: seq<TimerOp>, corrected: bool)
    decreases |ops|
  {
    |ops| == 0 || (Enabled(t, ops[0]) && ValidTrace(Apply(t, ops[0], corrected), ops[1..], corrected))
  }

  function Replay(t: Timer, ops: seq<TimerOp>, corrected: bool): Timer
    requires ValidTrace(t, ops, corrected)
    decreases |ops|
  {
    if |ops| == 0 then t else Replay(Apply(t, ops[0], corrected), ops[1..], corrected)
  }

  /** The operation's reading, if it takes one. */
  predicate ReadingAtLeast(op: TimerOp, lo: real) {
    match op
    case TickOp(reading) => lo <= reading
    case ResumeOp(now) => lo <= now
    case _ => true
  }

  /** The clock never goes backwards: every reading in `ops` is at least `lo`
      and at least every reading before it. */
  predicate Monotone(lo: real, ops: seq<TimerOp>)
    decreases |ops|
  {
    |ops| == 0 ||
    (ReadingAtLeast(ops[0], lo) &&
     match ops[0]
     case TickOp(reading) => Monotone(reading, ops[1..])
     case ResumeOp(now) => Monotone(now, ops[1..])
     case _ => Monotone(lo, ops[1..]))
  }

  predicate NoStart(ops: seq<TimerOp>) {
    forall i :: 0 <= i < |ops| ==> !ops[i].StartOp?
  }

  /** Once started, the total is always the whole elapsed reading distance in
      seconds, whatever sequence of operations follows, with either `Resume`. */
  lemma {:induction false} ReplayTelescopes(t: Timer, ops: seq<TimerOp>, corrected: bool)
    requires Telescopes(t) && ValidTrace(t, ops, corrected)
    ensures Telescopes(Replay(t, ops, corrected))
    decreases |ops|
  {
    if |ops| > 0 {
      if ops[0].TickOp? {
        TickTelescopes(t, ops[0].reading);
      }
      ReplayTelescopes(Apply(t, ops[0], corrected), ops[1..], corrected);
    }
  }

  lemma NoStartTail(ops: seq<TimerOp>)
    requires |ops| > 0
    ensures NoStart(ops) <==> !ops[0].StartOp? && NoStart(ops[1..])
  {
    if !ops[0].StartOp? && NoStart(ops[1..]) {
      forall i | 0 <= i < |ops| ensures !ops[i].StartOp? {
        if i > 0 { assert ops[i] == ops[1..][i - 1]; }
      }
    }
    if NoStart(ops) {
      forall i | 0 <= i < |ops[1..]| ensures !ops[1..][i].StartOp? {
        assert ops[1..][i] == ops[i + 1];
      }
    }
  }

  /** Within one run (no restart), with a non-negative frequency and a clock
      that never goes backwards, the total never decreases, with either
      `Resume`. */
  lemma {:induction false} ReplayTotalNeverDecreases(t: Timer, ops: seq<TimerOp>, corrected: bool)
    requires t.frequency >= 0.0 && ValidTrace(t, ops, corrected)
    requires NoStart(ops) && Monotone(t.thisTick, ops)
    ensures Replay(t, ops, corrected).totalSeconds >= t.totalSeconds
    ensures Replay(t, ops, corrected).thisTick >= t.thisTick
    decreases |ops|
  {
    if |ops| > 0 {
      NoStartTail(ops);
      var next := Apply(t, ops[0], corrected);
      assert next.totalSeconds >= t.totalSeconds && next.thisTick >= t.thisTick by {
        match ops[0]
        case TickOp(reading) =>
          if !t.isPaused {
            assert reading - t.thisTick >= 0.0;
            assert next.deltaSeconds >= 0.0;
          }
        case _ =>
      }
      assert next.frequency == t.frequency;
      assert Monotone(next.thisTick, ops[1..]) by {
        match ops[0]
        case TickOp(reading) =>
          if t.isPaused { MonotoneWeaken(t.thisTick, reading, ops[1..]); }
        case ResumeOp(now) =>
          if !corrected { MonotoneWeaken(t.thisTick, now, ops[1..]); }
        case _ =>
      }
      ReplayTotalNeverDecreases(next, ops[1..], corrected);
    }
  }

  /** The program as written: once paused, no later Start, Stop, Resume or
      Tick lowers the flag again, every Tick is a no-op, and so delta and
      total stay frozen: at their paused values without a restart, at the 0
      of the restart otherwise. */
  lemma {:induction false} PausedStaysPaused(t: Timer, ops: seq<TimerOp>)
    requires t.isPaused && ValidTrace(t, ops, false)
    ensures Replay(t, ops, false).isPaused
    ensures Replay(t, ops, false).totalSeconds == (if NoStart(ops) then t.totalSeconds else 0.0)
    ensures Replay(t, ops, false).deltaSeconds == (if NoStart(ops) then t.deltaSeconds else 0.0)
    ensures NoStart(ops) ==> Replay(t, ops, false).(isRunning := t.isRunning) == t
    decreases |ops|
  {
    if |ops| > 0 {
      NoStartTail(ops);
      PausedStaysPaused(Apply(t, ops[0], false), ops[1..]);
    }
  }

  /** A lower starting bound only makes `Monotone` easier to meet. */
  lemma {:induction false} MonotoneWeaken(lo: real, hi: real, ops: seq<TimerOp>)
    requires lo <= hi && Monotone(hi, ops)
    ensures Monotone(lo, ops)
    decreases |ops|
  {
    if |ops| > 0 && !ops[0].TickOp? && !ops[0].ResumeOp? {
      MonotoneWeaken(lo, hi, ops[1..]);
    }
  }
}

=== FILE: Windows.dfy ===
/** The bookkeeping of `dx::Window` (DXLib/src/Window.cpp): the process-wide
    class-registration flag, the error result of `Initialize`, the stored
    client size, the close flag and the message-to-hook dispatch. Every Win32
    call is replaced by its outcome, passed in as a parameter:
    RegisterClass's success, CreateWindowEx's handle, and the border that
    AdjustWindowRect adds for the window's fixed style. */
module Windows {
  import opened Errors

  datatype Handle = NullHandle | Hwnd(id: nat)

  /** What AdjustWindowRect adds around a client rectangle for the window's
      style (caption and borders). */
  datatype Chrome = Chrome(extraWidth: nat, extraHeight: nat)

  datatype Window = Window(
    title: string,
    // Client-area size as stored in `_width` / `_height`.
    width: nat,
    height: nat,
    hwnd: Handle,
    shouldClose: bool)

  /** The constructor stores the requested size and title, no handle yet, and
      no close request. */
  function NewWindow(width: nat, height: nat, title: string): (w: Window)
    ensures w.width == width && w.height == height && w.title == title
    ensures w.hwnd == NullHandle && !w.shouldClose
  {
    Window(title, width, height, NullHandle, false)
  }

  function GetWidth(w: Window): nat { w.width }
  function GetHeight(w: Window): nat { w.height }
  function IsCloseRequested(w: Window): bool { w.shouldClose }

  /** The handle accessor asserts that the window was created. */
  function GetHandle(w: Window): (h: Handle)
    requires w.hwnd != NullHandle
    ensures h.Hwnd?
  {
    w.hwnd
  }

  /** Outer window size for a client size (GetRealWidth / GetRealHeight, and
      the size CreateWindowEx is asked for). */
  function RealWidth(w: Window, c: Chrome): (r: nat)
    ensures r >= GetWidth(w)
    ensures r == GetWidth(w) <==> c.extraWidth == 0
  {
    w.width + c.extraWidth
  }

  function RealHeight(w: Window, c: Chrome): (r: nat)
    ensures r >= GetHeight(w)
    ensures r == GetHeight(w) <==> c.extraHeight == 0
  {
    w.height + c.extraHeight
  }

  // ---------------------------------------------------------------------
  // Class registration and creation.

  datatype Registration = Registration(err: Error, classRegistered: bool)

  /** `RegisterDXClass`: asserts the class is not registered yet, and raises
      the process-wide flag only when RegisterClass succeeds. */
  function RegisterDXClass(classRegistered: bool, registerSucceeds: bool): (r: Registration)
    requires !classRegistered
    ensures r.err == OK <==> registerSucceeds
    ensures r.err != OK ==> r.err == WindowClassRegFail
    ensures r.classRegistered <==> r.err == OK
  {
    if !registerSucceeds then Registration(WindowClassRegFail, false)
    else Registration(OK, true)
  }

  /** What CreateWindowEx was asked for, if it was called. */
  datatype CreateRequest = NotAttempted | Requested(width: nat, height: nat)

  datatype Creation = Creation(err: Error, window: Window, request: CreateRequest)

  /** `InitWindow`: asks for a window whose outer size fits the stored client
      size, stores whatever handle comes back, and reports failure exactly
      when that handle is null. The stored client size is left as it is. */
  function InitWindow(w: Window, c: Chrome, created: Handle): (r: Creation)
    ensures r.err == WindowCreateFail <==> created == NullHandle
    ensures r.err == OK <==> created != NullHandle
    ensures r.window == w.(hwnd := created)
    ensures r.request == Requested(RealWidth(w, c), RealHeight(w, c))
  {
    Creation(if created == NullHandle then WindowCreateFail else OK,
             w.(hwnd := created),
             Requested(RealWidth(w, c), RealHeight(w, c)))
  }

  datatype Initialization = Initialization(err: Error, window: Window, classRegistered: bool,
                                           request: CreateRequest)

  /** `Initialize`: asserts no handle exists yet, registers the shared class
      only if no earlier window did, and gives up with the registration error
      before CreateWindowEx when that fails. */
  function Initialize(w: Window, c: Chrome, classRegistered: bool, registerSucceeds: bool,
                      created: Handle): (r: Initialization)
    requires w.hwnd == NullHandle
    ensures classRegistered ==> r.classRegistered
    ensures !classRegistered && !registerSucceeds ==>
      r == Initialization(WindowClassRegFail, w, false, NotAttempted)
    ensures classRegistered || registerSucceeds ==>
      && r.classRegistered
      && r.request == Requested(RealWidth(w, c), RealHeight(w, c))
      && r.window == w.(hwnd := created)
      && (r.err == OK <==> created != NullHandle)
    ensures r.err == OK <==> (classRegistered || registerSucceeds) && created != NullHandle
    ensures r.err == OK ==> r.window.hwnd != NullHandle
    ensures r.err != OK ==> r.window.hwnd == NullHandle
  {
    var reg := if classRegistered then Registration(OK, true)
               else RegisterDXClass(classRegistered, registerSucceeds);
    if reg.err != OK then Initialization(reg.err, w, reg.classRegistered, NotAttempted)
    else
      var made := InitWindow(w, c, created);
      Initialization(made.err, made.window, reg.classRegistered, made.request)
  }

  /** Two windows in one process: the class is registered by the first one
      only, and once registered it stays registered whatever the second
      window's creation does. */
  lemma RegistrationIsProcessWide(w1: Window, w2: Window, c: Chrome, ok1: bool, ok2: bool,
                                  h1: Handle, h2: Handle)
    requires w1.hwnd == NullHandle && w2.hwnd == NullHandle
    ensures var first := Initialize(w1, c, false, ok1, h1);
      first.classRegistered ==>
        && Initialize(w2, c, true, ok2, h2).classRegistered
        && (Initialize(w2, c, true, ok2, h2).err == OK <==> h2 != NullHandle)
  {
  }

  // ---------------------------------------------------------------------
  // Resizing.

  datatype Resize = Resize(window: Window, posWidth: nat, posHeight: nat)

  /** `SetSize` as written: the requested client size is overwritten by the
      border-adjusted outer size before it is stored, and SetWindowPos gets
      that outer size. */
  function SetSizeAsWritten(w: Window, c: Chrome, nWidth: nat, nHeight: nat): (r: Resize)
    ensures r.window.width == nWidth + c.extraWidth
    ensures r.window.height == nHeight + c.extraHeight
    ensures r.posWidth == r.window.width && r.posHeight == r.window.height
    ensures r.window.(width := w.width, height := w.height) == w
  {
    Resize(w.(width := nWidth + c.extraWidth, height := nHeight + c.extraHeight),
           nWidth + c.extraWidth, nHeight + c.extraHeight)
  }

  /** The counterexample behind the `SetSize` finding: with any border at
      all, the client width read back is not the one just set, and the outer
      width is then counted with the border twice. */
  lemma SetSizeAsWrittenMisreports(w: Window, c: Chrome, nWidth: nat, nHeight: nat)
    requires c.extraWidth > 0
    ensures var r := SetSizeAsWritten(w, c, nWidth, nHeight);
      && GetWidth(r.window) != nWidth
      && RealWidth(r.window, c) == nWidth + 2 * c.extraWidth
      && RealWidth(r.window, c) != r.posWidth
  {
  }

  /** `SetSize` as evidently intended ("Sets the size of the client area"):
      store the requested client size and give SetWindowPos the outer size. */
  function SetSize(w: Window, c: Chrome, nWidth: nat, nHeight: nat): (r: Resize)
    ensures GetWidth(r.window) == nWidth && GetHeight(r.window) == nHeight
    ensures r.posWidth == RealWidth(r.window, c) && r.posHeight == RealHeight(r.window, c)
    ensures r.window.(width := w.width, height := w.height) == w
  {
    Resize(w.(width := nWidth, height := nHeight), nWidth + c.extraWidth, nHeight + c.extraHeight)
  }

  /** Setting a size and setting it again with the same values changes
      nothing more. */
  lemma SetSizeIdempotent(w: Window, c: Chrome, nWidth: nat, nHeight: nat)
    ensures var once := SetSize(w, c, nWidth, nHeight);
      SetSize(once.window, c, nWidth, nHeight) == once
  {
  }

  // ---------------------------------------------------------------------
  // Message dispatch.

  const WA_INACTIVE: nat := 0
  const SIZE_MINIMIZED: bv32 := 1
  const SIZE_MAXIMIZED: bv32 := 2

  datatype Message =
    | Destroy
    | Activate(activation: nat)
    | Size(sizeKind: bv32)
    | OtherMessage(code: nat)

  datatype Hook = OnClose | OnGainFocus | OnLostFocus | OnMinimize | OnMaximize

  /** A hook invocation, with what `IsCloseRequested()` answers while the
      hook runs. */
  datatype HookCall = HookCall(hook: Hook, closeRequested: bool)

  datatype Dispatched = Dispatched(window: Window, calls: seq<HookCall>)

  /** The activation state of WM_ACTIVATE's wParam is its low word; the high
      word says whether the window is minimised. */
  function LowWord(wParam: nat): nat {
    wParam % 0x1_0000
  }

  /** The focus hook for WM_ACTIVATE as written: a wParam equal to
      WA_INACTIVE gains focus, any other wParam loses it. */
  function ActivateHookAsWritten(activation: nat): Hook {
    if activation == WA_INACTIVE then OnGainFocus else OnLostFocus
  }

  /** The focus hook for WM_ACTIVATE as evidently intended: a deactivation,
      minimised or not, loses focus. */
  function ActivateHook(activation: nat): Hook {
    if LowWord(activation) == WA_INACTIVE then OnLostFocus else OnGainFocus
  }

  /** The hooks of a sequence of hook calls, in order. */
  function Hooks(calls: seq<HookCall>): (hs: seq<Hook>)
    ensures |hs| == |calls|
    ensures forall i :: 0 <= i < |calls| ==> hs[i] == calls[i].hook
  {
    if |calls| == 0 then [] else [calls[0].hook] + Hooks(calls[1..])
  }

  /** The hook WM_SIZE fires, if any: maximised wins over minimised. */
  function SizeHooks(kind: bv32): (hs: seq<Hook>)
    ensures |hs| <= 1
    ensures kind & SIZE_MAXIMIZED != 0 ==> hs == [OnMaximize]
    ensures kind & SIZE_MAXIMIZED == 0 && kind & SIZE_MINIMIZED != 0 ==> hs == [OnMinimize]
    ensures kind & (SIZE_MAXIMIZED | SIZE_MINIMIZED) == 0 ==> hs == []
  {
    if kind & SIZE_MAXIMIZED != 0 then [OnMaximize]
    else if kind & SIZE_MINIMIZED != 0 then [OnMinimize]
    else []
  }

  /** The hooks one message fires, independently of the window: the close
      hook for WM_DESTROY, one focus hook for WM_ACTIVATE (picked as written
      or corrected), the size hooks for WM_SIZE and none otherwise. */
  function MessageHooks(msg: Message, corrected: bool): seq<Hook> {
    match msg
    case Destroy => [OnClose]
    case Activate(a) => [if corrected then ActivateHook(a) else ActivateHookAsWritten(a)]
    case Size(kind) => SizeHooks(kind)
    case OtherMessage(_) => []
  }

  /** The hooks a batch of messages fires, in order. The close hook is among
      them exactly when WM_DESTROY is among the messages. */
  function Fired(msgs: seq<Message>, corrected: bool): (hs: seq<Hook>)
    ensures OnClose in hs <==> HasDestroy(msgs)
    ensures |hs| <= |msgs|
  {
    if |msgs| == 0 then []
    else
      var rest := Fired(msgs[1..], corrected);
      assert HasDestroy(msgs) <==> msgs[0].Destroy? || HasDestroy(msgs[1..]) by {
        DestroySplits(msgs);
      }
      MessageHooks(msgs[0], corrected) + rest
  }

  lemma DestroySplits(msgs: seq<Message>)
    requires |msgs| > 0
    ensures HasDestroy(msgs) <==> msgs[0].Destroy? || HasDestroy(msgs[1..])
  {
    if HasDestroy(msgs[1..]) {
      var i :| 0 <= i < |msgs[1..]| && msgs[1..][i].Destroy?;
      assert msgs[i + 1].Destroy?;
    }
    if HasDestroy(msgs) && !msgs[0].Destroy? {
      var i :| 0 <= i < |msgs| && msgs[i].Destroy?;
      assert msgs[1..][i - 1].Destroy?;
    }
  }

  lemma {:induction false} HooksAppend(a: seq<HookCall>, b: seq<HookCall>)
    ensures Hooks(a + b) == Hooks(a) + Hooks(b)
  {
    assert Hooks(a + b) == Hooks(a) + Hooks(b) by {
      var l, r := Hooks(a + b), Hooks(a) + Hooks(b);
      assert |l| == |r|;
      forall i | 0 <= i < |l| ensures l[i] == r[i] {
        if i < |a| { assert (a + b)[i] == a[i]; } else { assert (a + b)[i] == b[i - |a|]; }
      }
    }
  }

  /** `WindowProc` with the corrected WM_ACTIVATE branch. On WM_DESTROY the
      close hook runs first and the close flag is raised after it. */
  function Dispatch(w: Window, msg: Message): (r: Dispatched)
    ensures r.window.shouldClose == (w.shouldClose || msg.Destroy?)
    ensures r.window.(shouldClose := w.shouldClose) == w
    ensures msg.Destroy? ==> r.calls == [HookCall(OnClose, w.shouldClose)]
    ensures msg.Activate? ==>
      r.calls == [HookCall(if LowWord(msg.activation) == WA_INACTIVE then OnLostFocus else OnGainFocus,
                           w.shouldClose)]
    ensures msg.Size? ==> Hooks(r.calls) == SizeHooks(msg.sizeKind)
    ensures msg.OtherMessage? ==> r.calls == []
    ensures Hooks(r.calls) == MessageHooks(msg, true)
    ensures HasCloseCall(r.calls) <==> msg.Destroy?
    ensures |r.calls| <= 1
    ensures forall i :: 0 <= i < |r.calls| ==> r.calls[i].closeRequested == w.shouldClose
  {
    match msg
    case Destroy =>
      var calls := [HookCall(OnClose, w.shouldClose)];
      assert calls[0].hook == OnClose;
      Dispatched(w.(shouldClose := true), calls)
    case Activate(a) => Dispatched(w, [HookCall(ActivateHook(a), w.shouldClose)])
    case Size(kind) =>
      var hs := SizeHooks(kind);
      Dispatched(w, if |hs| == 0 then [] else [HookCall(hs[0], w.shouldClose)])
    case OtherMessage(_) => Dispatched(w, [])
  }

  /** `WindowProc` exactly as written; it differs from `Dispatch` only on
      WM_ACTIVATE. */
  function DispatchAsWritten(w: Window, msg: Message): (r: Dispatched)
    ensures !msg.Activate? ==> r == Dispatch(w, msg)
    ensures msg.Activate? ==> r.window == w
    ensures msg.Activate? ==>
      r.calls == [HookCall(if msg.activation == WA_INACTIVE then OnGainFocus else OnLostFocus,
                           w.shouldClose)]
    ensures Hooks(r.calls) == MessageHooks(msg, false)
  {
    match msg
    case Activate(a) => Dispatched(w, [HookCall(ActivateHookAsWritten(a), w.shouldClose)])
    case _ => Dispatch(w, msg)
  }

  /** `WindowProc` as written, or with the corrected WM_ACTIVATE branch. */
  function DispatchWith(w: Window, msg: Message, corrected: bool): (r: Dispatched)
    ensures r.window.shouldClose == (w.shouldClose || msg.Destroy?)
    ensures r.window.(shouldClose := w.shouldClose) == w
    ensures HasCloseCall(r.calls) <==> msg.Destroy?
    ensures Hooks(r.calls) == MessageHooks(msg, corrected)
  {
    if corrected then Dispatch(w, msg) else DispatchAsWritten(w, msg)
  }

  /** The counterexample behind the WM_ACTIVATE finding: a plain
      deactivation fires the gain-focus hook as written and the lost-focus
      hook once corrected. The two disagree exactly on a plain deactivation
      and on every activation; they agree, on the lost-focus hook, only for a
      minimised deactivation. */
  lemma ActivateHooksSwapped(w: Window, activation: nat)
    ensures DispatchAsWritten(w, Activate(WA_INACTIVE)).calls[0].hook == OnGainFocus
    ensures Dispatch(w, Activate(WA_INACTIVE)).calls[0].hook == OnLostFocus
    ensures DispatchAsWritten(w, Activate(activation)).calls[0].hook
         != Dispatch(w, Activate(activation)).calls[0].hook
        <==> activation == WA_INACTIVE || LowWord(activation) != WA_INACTIVE
    ensures DispatchAsWritten(w, Activate(0x1_0000)).calls[0].hook == OnLostFocus
    ensures Dispatch(w, Activate(0x1_0000)).calls[0].hook == OnLostFocus
  {
  }

  datatype Pumped = Pumped(window: Window, calls: seq<HookCall>)

  predicate HasDestroy(msgs: seq<Message>) {
    exists i :: 0 <= i < |msgs| && msgs[i].Destroy?
  }

  predicate HasCloseCall(calls: seq<HookCall>) {
    exists i :: 0 <= i < |calls| && calls[i].hook == OnClose
  }

  /** `HandleMessages`: drain the pending messages in order, dispatching each
      with `WindowProc` as written, or with the corrected WM_ACTIVATE branch
      when `corrected`. The close flag ends up raised exactly when it already
      was or a WM_DESTROY arrived, the close hook fires exactly when
      WM_DESTROY arrived, and the hooks fired are those the messages name, in
      order. The flag is never lowered. */
  function Pump(w: Window, msgs: seq<Message>, corrected: bool): (r: Pumped)
    ensures r.window.shouldClose == (w.shouldClose || HasDestroy(msgs))
    ensures r.window.(shouldClose := w.shouldClose) == w
    ensures HasCloseCall(r.calls) <==> HasDestroy(msgs)
    ensures Hooks(r.calls) == Fired(msgs, corrected)
    ensures |r.calls| <= |msgs|
    decreases |msgs|
  {
    if |msgs| == 0 then Pumped(w, [])
    else
      var first := DispatchWith(w, msgs[0], corrected);
      var rest := Pump(first.window, msgs[1..], corrected);
      DestroySplits(msgs);
      var calls := first.calls + rest.calls;
      HooksAppend(first.calls, rest.calls);
      CloseCallSplits(first.calls, rest.calls);
      Pumped(rest.window, calls)
  }

  lemma CloseCallSplits(a: seq<HookCall>, b: seq<HookCall>)
    ensures HasCloseCall(a + b) <==> HasCloseCall(a) || HasCloseCall(b)
  {
    var calls := a + b;
    if HasCloseCall(b) {
      var i :| 0 <= i < |b| && b[i].hook == OnClose;
      assert calls[|a| + i] == b[i];
    }
    if HasCloseCall(calls) && !HasCloseCall(a) {
      var i :| 0 <= i < |calls| && calls[i].hook == OnClose;
      assert i >= |a|;
      assert b[i - |a|] == calls[i];
    }
    if HasCloseCall(a) {
      var i :| 0 <= i < |a| && a[i].hook == OnClose;
      assert calls[i] == a[i];
    }
  }

  /** As written, a plain deactivation pumped through `HandleMessages` fires
      the gain-focus hook; with the corrected dispatch it fires the lost-focus
      hook. */
  lemma PumpedDeactivation(w: Window)
    ensures Pump(w, [Activate(WA_INACTIVE)], false).calls == [HookCall(OnGainFocus, w.shouldClose)]
    ensures Pump(w, [Activate(WA_INACTIVE)], true).calls == [HookCall(OnLostFocus, w.shouldClose)]
  {
    assert [Activate(WA_INACTIVE)][1..] == [];
  }

  /** The close flag only moves one way: once raised, no batch of messages
      lowers it. */
  lemma CloseFlagIsSticky(w: Window, msgs: seq<Message>, corrected: bool)
    requires IsCloseRequested(w)
    ensures IsCloseRequested(Pump(w, msgs, corrected).window)
  {
  }
}
